=== FILE: README.md ===
# Booking insights report: a Dafny model

`draft_mailscript.py` turns a table of daily hotel-booking records into the
sentences of a weekly e-mail report. Each record holds a date, a state, its
two-letter code, a division, the actual and forecast bookings, and the
creation date of the model snapshot the row belongs to. This project models
the pure rules inside that script and proves what they do.

The rules modelled are:

- **Snapshot and windows.** The report keeps the newest snapshot of the table.
  "This week" is the seven days ending two days before that snapshot's
  creation date. "Last week" is the same window moved back 7 days. The 2019
  comparison is meant to use the same window moved back 731 days, but as
  written both of its windows hold a single day (see Findings); the model
  has both versions.
- **Totals and changes.** Bookings are summed per state over a window, and the
  per-state sums are left-merged with the baseline window's sums. The percent
  change gets the +10 offset, is rounded to one decimal, and is bucketed as
  high, medium or low.
- **Narrative lists.** The report picks at most five states with the lowest
  negative change and at most five with the highest positive change. It looks
  up their names in the abbreviation table, joins them with ", " and replaces
  the last comma with " and", inside fixed sentences. For two or more names
  that gives "A, B and C"; for one or none it garbles the list (see
  Findings). Each section is modelled both as written and with the intended
  list.
- **Year to date.** The report averages each state's bookings since
  2021-01-01 and names the five highest and the five lowest states.
- **Anomaly test.** Daily totals of 2021 (the year is fixed in the code) are compared against
  integer bounds taken from the mean and the standard deviation.
- **Markup.** Every sentence is wrapped in the same list-item template.

Dates are day numbers counted from 1970-01-01. Percentages are exact reals,
extended with the infinities and NaN that pandas produces. Strings are
`seq<char>`.

Modules, in dependency order:

| file | module | models |
|---|---|---|
| outcomes.dfy | Outcomes | `Option`, `Result` and the report's two error causes |
| markup.dfy | Markup | `ptagwrap` and a reader that parses its output back |
| state_names.dfy | StateNames | the `us_state_abbrev` table and lookups in it |
| joining.dfy | Joining | `', '.join` followed by replacing the last comma with "and" |
| windows.dfy | Windows | the reporting windows, in days and in microseconds |
| percent.dfy | Percent | percent change, offset, rounding, `CalcRange` buckets, sort order |
| bookings.dfy | Bookings | records, the latest snapshot, selection, `groupby().sum()` |
| ranking.dfy | Ranking | `filter`, `sort_values`, `head()` |
| anomaly.dfy | Anomaly | daily totals, the bounds and the range membership test |
| report.dfy | Report | the two comparison sections (last week, 2019), end to end |
| ytd.dfy | YearToDate | the year-to-date section, end to end |

The abbreviation table has 58 entries.

## Model

| member | source | states |
|---|---|---|
| Markup.PTagWrapSmall | draft_mailscript.py:40-43 | no observations give the empty string; one observation gives exactly the opening markup, the sentence and `</span></p></li>` |
| Markup.PTagWrapAppend | draft_mailscript.py:42-43 | wrapping a concatenation of lists is the concatenation of the wrapped lists, so items stay in input order |
| Markup.PTagWrapLength | draft_mailscript.py:40-43 | the output length is one template per observation plus the observations' own lengths |
| Markup.ClosingBorderless | draft_mailscript.py:41 | the closing markup cannot overlap itself, so the first closing markup after an item is that item's own closing |
| Markup.UnwrapPTagWrap | draft_mailscript.py:40-43 | when no sentence contains the closing markup, the wrapped text reads back into exactly the sentences: one list item per observation, in order |
| StateNames.FindLast | draft_mailscript.py:18-29 | a lookup finds a code exactly when the table lists it, and returns the value of the last entry with that key, as a dict literal does |
| StateNames.TableShape | draft_mailscript.py:18-29 | the table has 58 entries; every code has two characters and no state name contains a comma |
| StateNames.Lookup | draft_mailscript.py:18-29 | lookup succeeds exactly for a code in the table and returns its name; any other code fails with that code (the KeyError) |
| StateNames.LookupAll | draft_mailscript.py:100 | names are looked up in list order; the first unknown code fails the whole list and is the code reported |
| StateNames.LookupCommaFree | draft_mailscript.py:18-29 | every name a lookup returns is comma-free, and only two-character codes are found |
| StateNames.LookupSamples | draft_mailscript.py:27-28 | "AP" is "Armed Forces Pacific"; "ZZZ" is unknown |
| Joining.RFind | draft_mailscript.py:101 | `rfind(",")` is -1 exactly when there is no comma; otherwise it is the index of the last comma |
| Joining.SliceIndex | draft_mailscript.py:102 | Python slice indices: a negative index counts from the end, an index past the end becomes the length, and one before the start becomes 0 (so `""[:-1]` is `""`) |
| Joining.SlicesRejoin | draft_mailscript.py:102 | `s[:k] + s[k:]` is `s` for every `k` |
| Joining.ReplaceCommaBetween | draft_mailscript.py:101-102 | when the last comma is the one between `a` and `b`, the replacement gives `a + conj + b` |
| Joining.ReplaceCommaAbsent | draft_mailscript.py:101-102 | with no comma, the text loses its last character and is repeated after the conjunction |
| Joining.JoinCommaFree | draft_mailscript.py:100 | joining comma-free names with a comma-free separator gives comma-free text |
| Joining.ScriptJoinMany | draft_mailscript.py:100-102 | for two or more comma-free names the script's list equals the intended list: all names in order, ", " between them, " and " before the last |
| Joining.DateJoinMany | draft_mailscript.py:265-267 | for two or more comma-free dates: "," between them and " and " before the last; the script builds this list but never prints it, because the anomaly sentence on line 268 has no `{datestr}` placeholder |
| Joining.ScriptJoinEmpty | draft_mailscript.py:100-102 | no names give the bare " and" |
| Joining.ScriptJoinOne | draft_mailscript.py:100-102 | one name gives the name minus its last character, then " and", then the name again |
| Joining.ScriptJoinSingleNameDiffers | draft_mailscript.py:100-102 | ["Texas"] gives "Texa andTexas" as written, while the intended list gives "Texas" |
| Joining.AndJoinFew | draft_mailscript.py:100-102 | the intended list gives "" for no names and the name itself for one |
| Joining.NameListAgree | draft_mailscript.py:100-102 | for two or more comma-free names the script's splice and the intended list print the same text |
| Joining.SplitJoin | draft_mailscript.py:100 | splitting the ", "-joined text of comma-free names gives back exactly the names, so the join loses and reorders nothing |
| Windows.DaysOf | draft_mailscript.py:66 | the inclusive filter `start <= Date <= end` keeps exactly the days from first to last |
| Windows.ThisWeekShape | draft_mailscript.py:136-140 | this week is the seven days `latest-8 .. latest-2`, both ends included |
| Windows.ShiftContains | draft_mailscript.py:146 | a shifted window holds a day exactly when the original holds that day plus the shift, and has the same length |
| Windows.WeeksAdjacent | draft_mailscript.py:146 | last week is seven days, disjoint from this week, and ends the day before this week starts; together they are 14 consecutive days |
| Windows.Year2019WeekShape | draft_mailscript.py:69 | the intended 2019 window is `latest-739 .. latest-733`: seven days, 731 days before this week, overlapping neither week |
| Windows.WeekSpanMatchesWindow | draft_mailscript.py:136-146 | the previous-week comparison's timestamp filters keep exactly this week's and last week's days |
| Windows.Year2019SpanIsOneDay | draft_mailscript.py:57-69 | the 2019 comparison's filter as written keeps only day `latest-2`, and its baseline only day `latest-733` |
| Windows.Year2019SpanMissesWeekStart | draft_mailscript.py:64-66 | the first day of this week is missed by the 2019 filter as written |
| Percent.PercentChange | draft_mailscript.py:71-72 | a missing baseline gives NaN; a nonzero baseline gives the change `c` with `b * (1 + c/100) = current`; a zero baseline gives +inf, -inf or NaN by the sign of the current total |
| Percent.RoundHalfEven | draft_mailscript.py:75 | the rounded integer is within 0.5, and exact halves go to the even neighbour |
| Percent.RoundHalfEvenMonotone | draft_mailscript.py:75 | rounding to an integer, ties to even included, never reverses the order of two numbers |
| Percent.Round1 | draft_mailscript.py:75 | one-decimal rounding gives a number with one decimal, at most 0.05 away, an exact tie going to the even tenth, and leaves inf and NaN alone |
| Percent.RoundingDemotesHigh | draft_mailscript.py:75-76 | rounding comes before bucketing: a change strictly between 5 and 5.05 is high, but it rounds to 5.0 and is reported medium |
| Percent.TieAtEdgeIsMedium | draft_mailscript.py:149-155 | 1901 bookings against 2000 give -4.95 + 10 = 5.05, which rounds half to even to 5.0 and is medium, not the high 5.1 |
| Percent.Classify | draft_mailscript.py:76 | high exactly above 5; medium exactly from -5 to 5, both ends included; low below -5 or NaN |
| Percent.ClassifyNumber | draft_mailscript.py:155 | on numbers the bucket function is total: high iff > 5, medium iff in [-5, 5], low iff < -5; 5 and -5 are medium |
| Percent.MissingBaselineIsLow | draft_mailscript.py:71-76 | a state with no baseline rows gets NaN, which is bucketed low |
| Percent.UnchangedIsTen | draft_mailscript.py:150-155 | a total equal to its nonzero baseline reports exactly 10 and is bucketed high |
| Percent.AtMostPreorder | draft_mailscript.py:73 | the sort order (-inf, numbers, +inf, NaN last) is a total preorder |
| Percent.OffsetKeepsOrder | draft_mailscript.py:73-74 | adding the offset keeps the relative order of any two changes, so sorting before or after it is the same |
| Percent.RoundKeepsOrder | draft_mailscript.py:75 | rounding never reverses the order of two changes |
| Percent.SignTests | draft_mailscript.py:99-107 | no change is both below and above 0; a change of exactly 0 or NaN is neither |
| Bookings.LatestCreation | draft_mailscript.py:54 | the latest creation date is absent exactly for an empty table; otherwise it is the maximum, and some row carries it |
| Bookings.LatestUnique | draft_mailscript.py:54 | the maximum creation date is unique: two dates that are both the maximum (or both absent, for an empty table) are equal |
| Bookings.Where | draft_mailscript.py:54 | a selection keeps exactly the rows that pass the condition, each as many times as the table has it |
| Bookings.WhereAppend | draft_mailscript.py:54 | a selection keeps table order: selecting from two tables in a row is selecting from each in turn |
| Bookings.SummarizeCount | draft_mailscript.py:67 | a group is non-empty exactly when some row matches; an empty group sums to 0 |
| Bookings.SummarizeWhere | draft_mailscript.py:66-67 | summing a group of a selection is summing the whole table under both conditions, so no other row contributes |
| Bookings.GroupOfSelection | draft_mailscript.py:66-67 | a group key occurs in a selection exactly when some table row passes both the selection and the key test, and the group's sum is that of those rows |
| Bookings.GroupBy | draft_mailscript.py:67 | one group per key value that occurs, holding the sum and count of exactly the rows with that key |
| Ranking.PrecedesPreorder | draft_mailscript.py:99 | ascending and descending orders are total and transitive |
| Ranking.PickFirst | draft_mailscript.py:99 | returns a key of the pool whose value comes first in the sort |
| Ranking.SelectTop | draft_mailscript.py:99 | picks `min(n, eligible)` distinct keys that pass the filter, in sort order, each preceding every eligible key left out; when `n` covers them all, every eligible key is picked |
| Anomaly.DailySeries | draft_mailscript.py:208-212 | one total per day that has rows in the latest snapshot, equal to that day's sum; over increasing days the entries have strictly increasing dates, so each date appears once, in date order |
| Anomaly.PyRange | draft_mailscript.py:222 | `range(lo, hi)` lists `lo, lo+1, ..., hi-1` |
| Anomaly.PyRangeMembership | draft_mailscript.py:222 | `x in range(lo, hi)` iff `lo <= x < hi` |
| Anomaly.Flagged | draft_mailscript.py:222-223 | the mask keeps each flagged entry exactly as often as the series has it and no other entry, and keeps date order |
| Anomaly.AsWrittenFlags | draft_mailscript.py:220-222 | as written, a total is flagged iff it is not in `[rangemin, rangemax)`; `rangemax` itself is flagged, and equal bounds flag every total |
| Anomaly.Trunc | draft_mailscript.py:220-221 | `int()` truncates toward zero |
| Anomaly.TruncMonotone | draft_mailscript.py:220-221 | truncation toward zero never reverses two values |
| Anomaly.Bounds | draft_mailscript.py:220-221 | for two or more totals the lower bound is at most the upper, and each bound lies strictly within one of the mean minus (resp. plus) 1.96 deviations, on either side |
| Anomaly.AnomalyBounds | draft_mailscript.py:217-221 | with fewer than two 2021 totals the deviation is NaN and `int()` fails; otherwise the result is `Bounds`, ordered and within one of each end of the band |
| Anomaly.TruncKeepsIntegers | draft_mailscript.py:220-221 | truncating a bound never moves it past an integer lying inside it |
| Anomaly.WithinBandNotFlagged | draft_mailscript.py:220-222 | a total within 1.96 standard deviations of the mean is never flagged by the closed test |
| Anomaly.ConstantSums | draft_mailscript.py:220-221 | a constant series sums to `c * n`, and its squared deviations from `c` are 0 |
| Anomaly.ConstantBounds | draft_mailscript.py:220-221 | a constant series has mean `c`, variance 0, and bounds `(c, c)` |
| Anomaly.ConstantSeriesAllFlagged | draft_mailscript.py:220-222 | on a constant series of two days or more, the test as written flags every day and the closed test flags none |
| Anomaly.IsAnomalyBand | draft_mailscript.py:222 | the closed test flags exactly the totals outside `[rangemin, rangemax]`; the half-open test is the closed test with `rangemax - 1` |
| Anomaly.ConstantSeriesNoneFlagged | draft_mailscript.py:222-223 | with equal bounds at the series value, the closed test flags nothing and the test as written flags the whole series |
| Report.WindowTotals | draft_mailscript.py:66-67 | a state has a total exactly when it has a row in the latest snapshot inside the window; the total is the sum over those rows only |
| Report.Compare | draft_mailscript.py:54-76 | the table is read from the latest snapshot `Model_creation_date.max()`; an empty table has none and fails; otherwise each state of this week carries its total, its baseline total (or none), the offset rounded change and the bucket |
| Report.CompareLastWeek | draft_mailscript.py:128-155 | an empty table fails; otherwise this week's totals left-merged with last week's; a state whose total equals its nonzero last-week total reports 10 and is high |
| Report.CompareYear2019 | draft_mailscript.py:63-69 | the corrected 2019 table (see Findings): what these lines evidently intend, this week's totals left-merged with those of the seven-day week 731 days earlier; an empty table fails |
| Report.CompareYear2019AsWritten | draft_mailscript.py:57-72 | as written, the current totals cover only day `latest-2` and the baselines only day `latest-733` |
| Report.NamesSentence | draft_mailscript.py:100-104 | succeeds exactly when every code is in the table; otherwise fails with the KeyError of the first unknown code, every code before it being known; on success the frame around the table's names for the codes, in order, listed with the script's splice (as written) or the intended list |
| Report.NamesSentenceAgree | draft_mailscript.py:100-104 | for two or more codes the splice and the intended list give the same sentence, because no table name contains a comma |
| Report.RankChanges | draft_mailscript.py:178-186 | low: `min(5, negative states)` distinct states below 0, ascending, each at most every negative state left out; high: likewise above 0, descending; a change of 0 or NaN is in neither |
| Report.ComparisonSection | draft_mailscript.py:96-116 | the lists are the ranked lowest and highest five; the section fails exactly when a listed code is unknown, with the first one (lowest list first); otherwise the overall sentence and the two list sentences, wrapped as list items |
| Report.Year2019Report | draft_mailscript.py:45-116 | the 2019 section: an empty table fails; otherwise the lists rank the changes of the merged table over the one-day windows (as written) or the weeks (intended), and the section is built from them |
| Report.LastWeekReport | draft_mailscript.py:118-196 | the previous-week section: an empty table fails; otherwise the lists rank the changes of this week against last week's table, and the section is built from them |
| YearToDate.YtdAverages | draft_mailscript.py:283-285 | the snapshot is the maximum creation date (none for an empty table); one average per state with rows in that snapshot since 2021-01-01: the sum over those rows divided by their count |
| YearToDate.YtdGroups | draft_mailscript.py:284-285 | grouping the year-to-date rows of the snapshot by state name yields exactly the names that have such rows, each with the sum and (positive) count of its rows |
| YearToDate.RankAverages | draft_mailscript.py:285 | the descending sort of the averages: every state exactly once, from the highest average down |
| YearToDate.TopStatesTopList | draft_mailscript.py:285-294 | `State[:5]` of the sort is the first `min(5, states)` distinct states, from the highest down, each at least every state left out |
| YearToDate.BottomStatesBottomList | draft_mailscript.py:285-299 | `State[-5:]` of the sort is the last `min(5, states)` distinct states, from the higher down, each at most every state left out |
| YearToDate.TopBottomDisjoint | draft_mailscript.py:294-299 | with ten or more states the head and the tail of the one sort share no state |
| YearToDate.YtdSection | draft_mailscript.py:285-305 | both lists come from one descending sort of the averages, head and tail; they are the top and bottom five, disjoint from ten states on, and the two sentences name them with the splice (as written) or the intended list |
| YearToDate.YtdSentencesEmpty | draft_mailscript.py:294-302 | with no state the script prints "... YTD are  and."; the intended list prints "... YTD are ." |
| YearToDate.YtdReport | draft_mailscript.py:274-305 | the lists are the head and the tail of one descending sort of the per-state averages of the latest snapshot since 2021-01-01, disjoint from ten states on; an empty table names no state and prints the empty-list sentences |

## Left out

- `divisionwiseanalysis`, `getbookingdf`, `sendmail_html`, `performanalysisandupdate`, the `__main__` block and `app.py`: these are division charts, random data and CSV input, SMTP, template files and a web route. The pure rules they hold are not part of this model.
- Plotly figures, image files and PIL cropping: external charting and image I/O.
- The overall-direction sentence of each comparison section, and the weekday/weekend and year-average sentences of `actualbookingstats`: they print floating-point means and ratios. The overall sentence is a parameter of `Report.ComparisonSection`.
- The anomaly count sentence and its integer formatting. The flagged days are modelled by `Anomaly.Flagged`.
- `strptime`, `strftime`, `day_name` and `to_datetime`: dates are day numbers.
- Missing `ActualBooking` values (`dropna`): every record carries an integer booking.
- Anomaly.Bounds: the square root is not computed. The standard deviation is an input whose square is the sample variance. `Bounds` itself needs two or more totals; the failure `int()` raises on fewer is modelled by `Anomaly.AnomalyBounds`.
- Percent.Round1: rounds exact reals half-to-even at the first decimal. It does not model binary floating-point rounding.
- Ranking.SelectTop: the sort is not stable, so the model promises nothing about the order of equal changes.
- YearToDate.YtdReport: the charting of the empty frame an empty table gives is not modelled; its sentences are.

## Findings

| source | as written | input that shows it | evidently intended | confidence | as-written member | corrected member |
|---|---|---|---|---|---|---|
| draft_mailscript.py:64 | `startdate = enddate - 6` subtracts 6 microseconds from a microsecond timestamp, so both 2019 comparison windows hold a single day | any table: day `latest-8` is outside the current window | a seven-day window, `enddate - np.timedelta64(6, 'D')`, as on line 138 | high (not executed) | Windows.Year2019SpanIsOneDay | Report.CompareYear2019 |
| draft_mailscript.py:100-102 | the last-comma replacement assumes a comma exists; `rfind` returns -1 for fewer than two names | one low state "TX" gives "Texa andTexas"; no state gives " and" | the single name alone, and the empty list | high (not executed) | Joining.ScriptJoinSingleNameDiffers | Joining.AndJoinFew |
| draft_mailscript.py:222 | `x in range(rangemin, rangemax)` is half-open, so a total equal to `rangemax` is flagged, and with equal bounds every total is flagged | a constant 2021 series: the standard deviation is 0, so the bounds are `(c, c)` and every day is flagged | flag only totals outside `[rangemin, rangemax]` | high (not executed) | Anomaly.ConstantSeriesAllFlagged | Anomaly.ConstantSeriesNoneFlagged |

=== FILE: anomaly.dfy ===
/**
 * Anomaly flagging of the daily booking totals of the current year: a day is
 * flagged when its total lies outside the integer bounds derived from the
 * mean and the sample standard deviation of the year's totals.
 */
module Anomaly {

  import opened Outcomes
  import opened Bookings

  /** The multiplier of the standard deviation: the two-sided 95% point of the normal distribution. */
  const Z: real := 1.96

  /** True when `series` has an entry for `day`. */
  predicate HasDay(series: seq<(int, int)>, day: int) {
    exists i | 0 <= i < |series| :: series[i].0 == day
  }

  /** A series with `e` in front has the day of `e` and every day of the rest, and no other. */
  lemma HasDayCons(e: (int, int), rest: seq<(int, int)>)
    ensures forall d :: HasDay([e] + rest, d) <==> e.0 == d || HasDay(rest, d)
  {
    var series := [e] + rest;
    assert forall i | 0 <= i < |rest| :: series[i + 1] == rest[i];
    assert series[0] == e;
  }

  /**
   * The daily totals of the latest snapshot over `days`, in the order of
   * `days`: `groupby('Date').sum()` restricted to one year. Days without a
   * row of the snapshot do not appear.
   */
  function DailySeries(rows: seq<BookingRecord>, latest: int, days: seq<int>): (series: seq<(int, int)>)
    ensures forall i | 0 <= i < |series| :: series[i].0 in days
    ensures forall i | 0 <= i < |series| ::
              series[i].1 == Summarize(rows, SnapshotDay(latest, series[i].0)).sum
    ensures forall d | d in days :: HasDay(series, d) <==> Summarize(rows, SnapshotDay(latest, d)).count > 0
    ensures Increasing(days) ==> DaysIncreasing(series)
  {
    if |days| == 0 then []
    else
      var d := days[0];
      var a := Summarize(rows, SnapshotDay(latest, d));
      var rest := DailySeries(rows, latest, days[1..]);
      assert forall e | e in days :: e == d || e in days[1..];
      DailyStep(days, (d, a.sum), rest);
      if a.count > 0 then
        HasDayCons((d, a.sum), rest);
        [(d, a.sum)] + rest
      else rest
  }

  /** Putting the first day in front of the series of the later days keeps the days increasing. */
  lemma DailyStep(days: seq<int>, e: (int, int), rest: seq<(int, int)>)
    requires |days| > 0 && e.0 == days[0]
    requires forall i | 0 <= i < |rest| :: rest[i].0 in days[1..]
    ensures Increasing(days) ==> Increasing(days[1..])
    ensures Increasing(days) && DaysIncreasing(rest) ==> DaysIncreasing([e] + rest)
  {
    if Increasing(days) && DaysIncreasing(rest) {
      var series := [e] + rest;
      forall i, j | 0 <= i < j < |series|
        ensures series[i].0 < series[j].0
      {
        if i == 0 {
          var k :| 0 <= k < |days[1..]| && days[1..][k] == rest[j - 1].0;
          assert days[k + 1] == rest[j - 1].0;
        } else {
          assert series[i] == rest[i - 1] && series[j] == rest[j - 1];
        }
      }
    }
  }

  /** The days are listed in strictly increasing order, as the dates of a sorted date index are. */
  predicate Increasing(days: seq<int>) {
    forall a, b | 0 <= a < b < |days| :: days[a] < days[b]
  }

  /** The entries of the series have strictly increasing days: one entry per date, in date order. */
  predicate DaysIncreasing(series: seq<(int, int)>) {
    forall i, j | 0 <= i < j < |series| :: series[i].0 < series[j].0
  }

  /** Python's `range(lo, hi)` as the sequence of its members. */
  function PyRange(lo: int, hi: int): (r: seq<int>)
    ensures |r| == if hi <= lo then 0 else hi - lo
    ensures forall i | 0 <= i < |r| :: r[i] == lo + i
    decreases hi - lo
  {
    if hi <= lo then [] else [lo] + PyRange(lo + 1, hi)
  }

  /** `x in range(lo, hi)` holds exactly from `lo` up to but excluding `hi`. */
  lemma {:induction false} PyRangeMembership(x: int, lo: int, hi: int)
    ensures x in PyRange(lo, hi) <==> lo <= x < hi
  {
    if lo <= x < hi {
      assert PyRange(lo, hi)[x - lo] == x;
    }
  }

  /** The script's test: a total is anomalous unless it is a member of `range(rangemin, rangemax)`. */
  predicate IsAnomalyAsWritten(total: int, rangemin: int, rangemax: int) {
    total !in PyRange(rangemin, rangemax)
  }

  /** The test the 95% band calls for: anomalous only outside `[rangemin, rangemax]`, both bounds included. */
  predicate IsAnomaly(total: int, rangemin: int, rangemax: int) {
    total < rangemin || total > rangemax
  }

  /** The script's test when `asWritten`, the closed test otherwise. */
  predicate Flags(total: int, rangemin: int, rangemax: int, asWritten: bool) {
    if asWritten then IsAnomalyAsWritten(total, rangemin, rangemax) else IsAnomaly(total, rangemin, rangemax)
  }

  /**
   * `r` is the mask selection of the flagged entries of `series`: each
   * flagged entry as often as in `series` and no other entry, in series order.
   */
  ghost predicate FlaggedEntries(series: seq<(int, int)>, r: seq<(int, int)>, rangemin: int, rangemax: int, asWritten: bool) {
    && |r| <= |series|
    && (forall e :: e in r <==> (e in series && Flags(e.1, rangemin, rangemax, asWritten)))
    && (forall e :: multiset(r)[e] == if Flags(e.1, rangemin, rangemax, asWritten) then multiset(series)[e] else 0)
    && (DaysIncreasing(series) ==> DaysIncreasing(r))
  }

  /** The entries of `series` whose totals are flagged, in series order: `isAnomaly` as a mask. */
  function Flagged(series: seq<(int, int)>, rangemin: int, rangemax: int, asWritten: bool): (r: seq<(int, int)>)
    ensures FlaggedEntries(series, r, rangemin, rangemax, asWritten)
  {
    if |series| == 0 then []
    else
      var rest := Flagged(series[1..], rangemin, rangemax, asWritten);
      FlaggedStep(series, rest, rangemin, rangemax, asWritten);
      if Flags(series[0].1, rangemin, rangemax, asWritten) then [series[0]] + rest else rest
  }

  /** The mask over the later entries extends to the whole series by keeping or dropping the first entry. */
  lemma FlaggedStep(series: seq<(int, int)>, rest: seq<(int, int)>, rangemin: int, rangemax: int, asWritten: bool)
    requires |series| > 0
    requires FlaggedEntries(series[1..], rest, rangemin, rangemax, asWritten)
    ensures FlaggedEntries(series, if Flags(series[0].1, rangemin, rangemax, asWritten) then [series[0]] + rest else rest,
                           rangemin, rangemax, asWritten)
  {
    var e := series[0];
    var tail := series[1..];
    assert series == [e] + tail;
    assert multiset(series) == multiset{e} + multiset(tail);
    assert forall x :: x in series <==> x == e || x in tail;
    SubseriesStep(series, rest);
    var r := if Flags(e.1, rangemin, rangemax, asWritten) then [e] + rest else rest;
    if Flags(e.1, rangemin, rangemax, asWritten) {
      assert multiset(r) == multiset{e} + multiset(rest);
      assert forall x :: x in r <==> x == e || x in rest;
    }
    forall x: (int, int)
      ensures multiset(r)[x] == if Flags(x.1, rangemin, rangemax, asWritten) then multiset(series)[x] else 0
    {
      assert multiset(series)[x] == (if x == e then 1 else 0) + multiset(tail)[x];
    }
    forall x: (int, int)
      ensures x in r <==> (x in series && Flags(x.1, rangemin, rangemax, asWritten))
    {
      assert x in r <==> multiset(r)[x] > 0;
      assert x in series <==> multiset(series)[x] > 0;
    }
    assert |r| <= |series|;
    assert DaysIncreasing(series) ==> DaysIncreasing(r);
    assert FlaggedEntries(series, r, rangemin, rangemax, asWritten);
  }

  /** Keeping the first entry in front of entries taken from the rest keeps the days increasing. */
  lemma SubseriesStep(series: seq<(int, int)>, rest: seq<(int, int)>)
    requires |series| > 0
    requires forall x | x in rest :: x in series[1..]
    ensures DaysIncreasing(series) ==> DaysIncreasing(series[1..])
    ensures DaysIncreasing(series) && DaysIncreasing(rest) ==> DaysIncreasing([series[0]] + rest)
  {
    if DaysIncreasing(series) && DaysIncreasing(rest) {
      var r := [series[0]] + rest;
      forall i, j | 0 <= i < j < |r|
        ensures r[i].0 < r[j].0
      {
        if i == 0 {
          assert rest[j - 1] in series[1..];
          var k :| 0 <= k < |series[1..]| && series[1..][k] == rest[j - 1];
          assert series[k + 1] == rest[j - 1];
        } else {
          assert r[i] == rest[i - 1] && r[j] == rest[j - 1];
        }
      }
    }
  }

  /**
   * The script's anomaly flag is the half-open test: a total equal to
   * `rangemax` is flagged, one equal to `rangemin` is not, and when the two
   * bounds coincide every total is flagged.
   */
  lemma AsWrittenFlags(total: int, rangemin: int, rangemax: int)
    ensures IsAnomalyAsWritten(total, rangemin, rangemax) <==> !(rangemin <= total < rangemax)
    ensures rangemin < rangemax ==> IsAnomalyAsWritten(rangemax, rangemin, rangemax) && !IsAnomalyAsWritten(rangemin, rangemin, rangemax)
    ensures rangemin == rangemax ==> IsAnomalyAsWritten(total, rangemin, rangemax)
  {
    PyRangeMembership(total, rangemin, rangemax);
    PyRangeMembership(rangemax, rangemin, rangemax);
    PyRangeMembership(rangemin, rangemin, rangemax);
  }

  /** The sum of a series of totals. */
  function Sum(xs: seq<int>): int {
    if |xs| == 0 then 0 else Sum(xs[..|xs| - 1]) + xs[|xs| - 1]
  }

  /** The mean of the totals. */
  function Mean(xs: seq<int>): real
    requires |xs| > 0
  {
    Sum(xs) as real / |xs| as real
  }

  /** The sum of the squared deviations from `m`. */
  function SquaredDeviations(xs: seq<int>, m: real): real {
    if |xs| == 0 then 0.0
    else SquaredDeviations(xs[..|xs| - 1], m) + (xs[|xs| - 1] as real - m) * (xs[|xs| - 1] as real - m)
  }

  /** pandas' `std()` squared: the sample variance, defined from two values on. */
  function SampleVariance(xs: seq<int>): real
    requires |xs| >= 2
  {
    SquaredDeviations(xs, Mean(xs)) / (|xs| - 1) as real
  }

  /** Python's `int(x)`: truncation toward zero. */
  function Trunc(x: real): (n: int)
    ensures x >= 0.0 ==> n as real <= x < n as real + 1.0
    ensures x < 0.0 ==> n as real - 1.0 < x <= n as real
  {
    if x >= 0.0 then x.Floor else -((-x).Floor)
  }

  /**
   * `rangemin` and `rangemax`: the mean minus and plus 1.96 standard
   * deviations, each truncated to an integer. The square root is not
   * computed here: `std` is any non-negative number whose square is the
   * sample variance.
   */
  function Bounds(xs: seq<int>, std: real): (b: (int, int))
    requires |xs| >= 2 && std >= 0.0 && std * std == SampleVariance(xs)
    ensures b.0 <= b.1
    ensures b.0 as real - 1.0 < Mean(xs) - Z * std < b.0 as real + 1.0
    ensures b.1 as real - 1.0 < Mean(xs) + Z * std < b.1 as real + 1.0
  {
    TruncMonotone(Mean(xs) - Z * std, Mean(xs) + Z * std);
    (Trunc(Mean(xs) - Z * std), Trunc(Mean(xs) + Z * std))
  }

  /**
   * The bounds with the script's error path: with fewer than two daily
   * totals pandas' `std()` is NaN, and `int()` of NaN raises.
   */
  function AnomalyBounds(xs: seq<int>, std: real): (r: Result<(int, int), ReportError>)
    requires |xs| >= 2 ==> std >= 0.0 && std * std == SampleVariance(xs)
    ensures r.Failure? <==> |xs| < 2
    ensures r.Failure? ==> r.error == UndefinedDeviation
    ensures r.Success? ==> r.value == Bounds(xs, std)
    ensures r.Success? ==> r.value.0 <= r.value.1
    ensures r.Success? ==> r.value.0 as real - 1.0 < Mean(xs) - Z * std < r.value.0 as real + 1.0
    ensures r.Success? ==> r.value.1 as real - 1.0 < Mean(xs) + Z * std < r.value.1 as real + 1.0
  {
    if |xs| < 2 then Failure(UndefinedDeviation) else Success(Bounds(xs, std))
  }

  /** Truncation toward zero is monotone. */
  lemma TruncMonotone(x: real, y: real)
    requires x <= y
    ensures Trunc(x) <= Trunc(y)
  {
  }

  /** Truncation toward zero never moves a bound past an integer on the inner side of it. */
  lemma TruncKeepsIntegers(t: int, x: real)
    ensures x <= t as real ==> Trunc(x) <= t
    ensures t as real <= x ==> t <= Trunc(x)
  {
  }

  /**
   * Truncating the bounds only widens the band: a total within 1.96 standard
   * deviations of the mean is never flagged by the closed test.
   */
  lemma WithinBandNotFlagged(xs: seq<int>, std: real, total: int)
    requires |xs| >= 2 && std >= 0.0 && std * std == SampleVariance(xs)
    requires Mean(xs) - Z * std <= total as real <= Mean(xs) + Z * std
    ensures !IsAnomaly(total, Bounds(xs, std).0, Bounds(xs, std).1)
  {
    TruncKeepsIntegers(total, Mean(xs) - Z * std);
    TruncKeepsIntegers(total, Mean(xs) + Z * std);
  }

  /** A series of `n` copies of `c`. */
  function Constant(c: int, n: nat): (xs: seq<int>)
    ensures |xs| == n && forall i | 0 <= i < n :: xs[i] == c
  {
    if n == 0 then [] else Constant(c, n - 1) + [c]
  }

  lemma {:induction false} ConstantSums(c: int, n: nat)
    ensures Sum(Constant(c, n)) == c * n
    ensures SquaredDeviations(Constant(c, n), c as real) == 0.0
  {
    if n > 0 {
      var xs := Constant(c, n);
      ConstantSums(c, n - 1);
      assert xs[..n - 1] == Constant(c, n - 1);
      assert xs[n - 1] == c;
      assert Sum(xs) == Sum(Constant(c, n - 1)) + c;
      assert SquaredDeviations(xs, c as real) == SquaredDeviations(Constant(c, n - 1), c as real) + 0.0;
    }
  }

  /** A constant series has mean `c`, variance 0, and both bounds equal to `c`. */
  lemma ConstantBounds(c: int, n: nat)
    requires n >= 2
    ensures Mean(Constant(c, n)) == c as real
    ensures SampleVariance(Constant(c, n)) == 0.0
    ensures Bounds(Constant(c, n), 0.0) == (c, c)
  {
    var xs := Constant(c, n);
    ConstantSums(c, n);
    assert Mean(xs) == c as real;
    assert SampleVariance(xs) == 0.0;
    assert Trunc(c as real) == c;
  }

  /**
   * On a constant series of at least two days the bounds are both `c`, and
   * `range(c, c)` is empty: the script flags every day. The closed test flags none.
   */
  lemma ConstantSeriesAllFlagged(c: int, n: nat)
    requires n >= 2
    ensures SampleVariance(Constant(c, n)) == 0.0
    ensures Bounds(Constant(c, n), 0.0) == (c, c)
    ensures forall i | 0 <= i < n :: IsAnomalyAsWritten(Constant(c, n)[i], c, c) && !IsAnomaly(Constant(c, n)[i], c, c)
  {
    ConstantBounds(c, n);
    AsWrittenFlags(c, c, c);
  }

  /** The closed test flags exactly the totals outside the bounds; both bounds themselves pass. */
  lemma IsAnomalyBand(total: int, rangemin: int, rangemax: int)
    ensures IsAnomaly(total, rangemin, rangemax) <==> !(rangemin <= total <= rangemax)
    ensures rangemin <= rangemax ==> !IsAnomaly(rangemin, rangemin, rangemax) && !IsAnomaly(rangemax, rangemin, rangemax)
    ensures IsAnomalyAsWritten(total, rangemin, rangemax) <==> IsAnomaly(total, rangemin, rangemax - 1)
  {
    AsWrittenFlags(total, rangemin, rangemax);
  }

  /** A series of one constant total has no anomaly under the closed test. */
  lemma {:induction false} ConstantSeriesNoneFlagged(series: seq<(int, int)>, c: int)
    requires forall i | 0 <= i < |series| :: series[i].1 == c
    ensures Flagged(series, c, c, false) == []
    ensures Flagged(series, c, c, true) == series
    decreases |series|
  {
    if |series| > 0 {
      var rest := series[1..];
      ConstantSeriesNoneFlagged(rest, c);
      assert Flagged(series, c, c, false) == [] by {
        assert !Flags(series[0].1, c, c, false);
      }
      assert Flagged(series, c, c, true) == series by {
        AsWrittenFlags(series[0].1, c, c);
        assert series == [series[0]] + rest;
      }
    }
  }

}

=== FILE: bookings.dfy ===
/**
 * The booking table and the table operations the report applies to it:
 * the latest-snapshot filter, date filters, and group-by sums.
 */
module Bookings {

  import opened Outcomes

  /** One row of the booking table; dates are day numbers. */
  datatype BookingRecord = BookingRecord(
    date: int,
    state: string,
    stateCode: string,
    division: string,
    actualBooking: int,
    forecastBooking: int,
    modelCreationDate: int)

  /** The sum and the number of the bookings of a group of rows. */
  datatype Aggregate = Aggregate(sum: int, count: nat)

  /** `latest` is the creation date of some row and no row was created later. */
  predicate IsLatest(rows: seq<BookingRecord>, latest: int) {
    && (exists i | 0 <= i < |rows| :: rows[i].modelCreationDate == latest)
    && (forall i | 0 <= i < |rows| :: rows[i].modelCreationDate <= latest)
  }

  /** `Model_creation_date.max()`: absent for an empty table. */
  function LatestCreation(rows: seq<BookingRecord>): (r: Option<int>)
    ensures r.None? <==> |rows| == 0
    ensures r.Some? ==> IsLatest(rows, r.value)
  {
    if |rows| == 0 then None
    else
      var last := rows[|rows| - 1].modelCreationDate;
      match LatestCreation(rows[..|rows| - 1])
      case None => Some(last)
      case Some(m) => Some(if m < last then last else m)
  }

  /** The latest creation date is unique: any date with the property is the one `LatestCreation` finds. */
  lemma LatestUnique(rows: seq<BookingRecord>, a: Option<int>, b: Option<int>)
    requires a.Some? <==> |rows| > 0
    requires a.Some? ==> IsLatest(rows, a.value)
    requires b.Some? <==> |rows| > 0
    requires b.Some? ==> IsLatest(rows, b.value)
    ensures a == b
  {
  }

  /** The rows that satisfy `keep`, in table order: a boolean-mask selection. */
  function Where(rows: seq<BookingRecord>, keep: BookingRecord -> bool): (r: seq<BookingRecord>)
    ensures |r| <= |rows|
    ensures forall x :: x in r <==> x in rows && keep(x)
    ensures forall x :: multiset(r)[x] == if keep(x) then multiset(rows)[x] else 0
  {
    if |rows| == 0 then []
    else
      var init := Where(rows[..|rows| - 1], keep);
      var last := rows[|rows| - 1];
      assert forall x :: x in rows <==> x in rows[..|rows| - 1] || x == last;
      assert rows == rows[..|rows| - 1] + [last];
      if keep(last) then init + [last] else init
  }

  /** Selection keeps table order: selecting from two tables one after the other is selecting from each in turn. */
  lemma {:induction false} WhereAppend(a: seq<BookingRecord>, b: seq<BookingRecord>, keep: BookingRecord -> bool)
    ensures Where(a + b, keep) == Where(a, keep) + Where(b, keep)
    decreases |b|
  {
    if |b| > 0 {
      var b0 := b[..|b| - 1];
      WhereAppend(a, b0, keep);
      assert (a + b)[..|a + b| - 1] == a + b0;
      assert (a + b)[|a + b| - 1] == b[|b| - 1];
    }
    else {
      assert a + b == a;
    }
  }

  /** The aggregate of the bookings of the rows that satisfy `keep`. */
  function Summarize(rows: seq<BookingRecord>, keep: BookingRecord -> bool): Aggregate {
    if |rows| == 0 then Aggregate(0, 0)
    else
      var a := Summarize(rows[..|rows| - 1], keep);
      var last := rows[|rows| - 1];
      if keep(last) then Aggregate(a.sum + last.actualBooking, a.count + 1) else a
  }

  /** A group holds a row exactly when its count is positive. */
  lemma {:induction false} SummarizeCount(rows: seq<BookingRecord>, keep: BookingRecord -> bool)
    ensures Summarize(rows, keep).count > 0 <==> exists i | 0 <= i < |rows| :: keep(rows[i])
    ensures Summarize(rows, keep).count <= |rows|
    ensures Summarize(rows, keep).count == 0 ==> Summarize(rows, keep) == Aggregate(0, 0)
    decreases |rows|
  {
    if |rows| > 0 {
      var init := rows[..|rows| - 1];
      SummarizeCount(init, keep);
      assert forall i | 0 <= i < |init| :: init[i] == rows[i];
    }
  }

  /** Summarizing a selection is summarizing the whole table under both conditions: no other row contributes. */
  lemma {:induction false} SummarizeWhere(rows: seq<BookingRecord>, keep: BookingRecord -> bool,
                                          group: BookingRecord -> bool, both: BookingRecord -> bool)
    requires forall x :: both(x) == (keep(x) && group(x))
    ensures Summarize(Where(rows, keep), group) == Summarize(rows, both)
    decreases |rows|
  {
    if |rows| > 0 {
      var init := rows[..|rows| - 1];
      var last := rows[|rows| - 1];
      SummarizeWhere(init, keep, group, both);
      if keep(last) {
        var sel := Where(init, keep) + [last];
        assert sel[..|sel| - 1] == Where(init, keep);
      }
    }
  }

  /**
   * Grouping a selection by `key` and reading group `k` sees exactly the
   * rows of the whole table that pass both the selection and `key == k`.
   */
  lemma GroupOfSelection<K>(rows: seq<BookingRecord>, keep: BookingRecord -> bool,
                                key: BookingRecord -> K, k: K, both: BookingRecord -> bool)
    requires forall x :: both(x) == (keep(x) && key(x) == k)
    ensures (exists i | 0 <= i < |Where(rows, keep)| :: key(Where(rows, keep)[i]) == k)
              <==> exists j | 0 <= j < |rows| :: both(rows[j])
    ensures Summarize(Where(rows, keep), KeyIs(key, k)) == Summarize(rows, both)
  {
    var selected := Where(rows, keep);
    SummarizeWhere(rows, keep, KeyIs(key, k), both);
    SummarizeCount(selected, KeyIs(key, k));
    SummarizeCount(rows, both);
    assert forall i | 0 <= i < |selected| :: KeyIs(key, k)(selected[i]) == (key(selected[i]) == k);
  }

  /** The condition "the row's key is `k`". */
  function KeyIs<K(==)>(key: BookingRecord -> K, k: K): BookingRecord -> bool {
    r => key(r) == k
  }

  /** The condition "the row belongs to the snapshot created on `latest` and is dated `day`". */
  function SnapshotDay(latest: int, day: int): BookingRecord -> bool {
    (r: BookingRecord) => r.modelCreationDate == latest && r.date == day
  }

  /**
   * `groupby(key).agg(...)`: one aggregate per key value that occurs, summing
   * (and counting) the bookings of the rows with that key.
   */
  method GroupBy<K(==)>(rows: seq<BookingRecord>, key: BookingRecord -> K) returns (groups: map<K, Aggregate>)
    ensures forall k :: k in groups <==> exists i | 0 <= i < |rows| :: key(rows[i]) == k
    ensures forall k | k in groups :: groups[k] == Summarize(rows, KeyIs(key, k)) && groups[k].count > 0
  {
    groups := map[];
    var i := 0;
    while i < |rows|
      invariant 0 <= i <= |rows|
      invariant forall k :: k in groups <==> exists j | 0 <= j < i :: key(rows[j]) == k
      invariant forall k | k in groups :: groups[k] == Summarize(rows[..i], KeyIs(key, k)) && groups[k].count > 0
    {
      var row := rows[i];
      var k0 := key(row);
      assert rows[..i + 1][..i] == rows[..i];
      var before := if k0 in groups then groups[k0] else Aggregate(0, 0);
      if k0 !in groups {
        SummarizeCount(rows[..i], KeyIs(key, k0));
        assert forall j | 0 <= j < i :: rows[..i][j] == rows[j];
      }
      var prev := groups;
      groups := prev[k0 := Aggregate(before.sum + row.actualBooking, before.count + 1)];
      forall k | k in groups
        ensures groups[k] == Summarize(rows[..i + 1], KeyIs(key, k))
      {
        assert rows[..i + 1][i] == row;
        assert rows[..i + 1][..i] == rows[..i];
        if k == k0 {
          assert KeyIs(key, k)(row);
        } else {
          assert !KeyIs(key, k)(row);
        }
      }
      i := i + 1;
    }
    assert rows[..i] == rows;
  }
}

=== FILE: joining.dfy ===
/**
 * The "join with commas, then turn the last comma into 'and'" step the report
 * uses to print a list of names inside a sentence, with Python's slicing and
 * `str.rfind` semantics written out.
 */
module Joining {

  /** Python's `s.rfind(c)` for a single character: the last index of `c`, or -1 when absent. */
  function RFind(s: string, c: char): (r: int)
    ensures -1 <= r < |s|
    ensures r == -1 <==> c !in s
    ensures r >= 0 ==> s[r] == c && forall j | r < j < |s| :: s[j] != c
  {
    if |s| == 0 then -1
    else if s[|s| - 1] == c then |s| - 1
    else
      var r := RFind(s[..|s| - 1], c);
      assert forall j | 0 <= j < |s| - 1 :: s[..|s| - 1][j] == s[j];
      r
  }

  /** The position Python's slicing uses for index `k`: negative indices count from the end; both are clamped. */
  function SliceIndex(s: string, k: int): (r: nat)
    ensures r <= |s|
    ensures 0 <= k <= |s| ==> r == k
    ensures -|s| <= k < 0 ==> r == |s| + k
    ensures k > |s| ==> r == |s|
    ensures k < -|s| ==> r == 0
  {
    if k >= 0 then (if k <= |s| then k else |s|)
    else if |s| + k >= 0 then |s| + k else 0
  }

  /** Python's `s[:k]`. */
  function SliceTo(s: string, k: int): string {
    s[..SliceIndex(s, k)]
  }

  /** Python's `s[k:]`. */
  function SliceFrom(s: string, k: int): string {
    s[SliceIndex(s, k)..]
  }

  /** `s[:k] + s[k:]` is `s` again, whatever `k` is. */
  lemma SlicesRejoin(s: string, k: int)
    ensures SliceTo(s, k) + SliceFrom(s, k) == s
  {
  }

  /** `s[:i] + conj + s[i+1:]` where `i = s.rfind(",")`: the script's in-place comma replacement. */
  function ReplaceLastComma(s: string, conj: string): string {
    var i := RFind(s, ',');
    SliceTo(s, i) + conj + SliceFrom(s, i + 1)
  }

  /** `sep.join(items)`. */
  function Join(items: seq<string>, sep: string): string {
    if |items| == 0 then ""
    else if |items| == 1 then items[0]
    else Join(items[..|items| - 1], sep) + sep + items[|items| - 1]
  }

  /** No item contains a comma. */
  predicate CommaFree(items: seq<string>) {
    forall i | 0 <= i < |items| :: ',' !in items[i]
  }

  /** The names list as the script builds it: join with ", ", then replace the last comma with " and". */
  function ScriptJoin(names: seq<string>): string {
    ReplaceLastComma(Join(names, ", "), " and")
  }

  /** The anomaly-date list: join with ",", then replace the last comma with " and ". */
  function DateJoin(dates: seq<string>): string {
    ReplaceLastComma(Join(dates, ","), " and ")
  }

  /**
   * The evidently intended list: nothing for no names, the name alone for one,
   * otherwise ", " between names and " and " before the last one.
   */
  function AndJoin(names: seq<string>): string {
    if |names| <= 1 then Join(names, ", ")
    else Join(names[..|names| - 1], ", ") + " and " + names[|names| - 1]
  }

  /** The list as a report prints it: the script's last-comma splice when `asWritten`, the intended list otherwise. */
  function NameList(names: seq<string>, asWritten: bool): string {
    if asWritten then ScriptJoin(names) else AndJoin(names)
  }

  /** In `a + "," + b` with no comma in `b`, the last comma is the one right after `a`. */
  lemma RFindBetween(a: string, b: string)
    requires ',' !in b
    ensures RFind(a + "," + b, ',') == |a|
  {
    var s := a + "," + b;
    assert s[|a|] == ',';
    var r := RFind(s, ',');
    assert r >= 0;
  }

  /** The two sides of the comma in `a + "," + b`, cut back out. */
  lemma AroundComma(a: string, b: string)
    ensures (a + "," + b)[..|a|] == a
    ensures (a + "," + b)[|a| + 1..] == b
  {
  }

  /** The ", " separator is a comma followed by a space that belongs to the next item's side. */
  lemma CommaSpace(a: string, b: string)
    ensures a + ", " + b == a + "," + (" " + b)
    ensures ',' in " " + b <==> ',' in b
  {
    assert (" " + b)[1..] == b;
  }

  /** When the last comma of `s` is the one between `a` and `b`, it is the one replaced. */
  lemma ReplaceCommaBetween(a: string, b: string, conj: string)
    requires ',' !in b
    ensures ReplaceLastComma(a + "," + b, conj) == a + conj + b
  {
    RFindBetween(a, b);
    AroundComma(a, b);
  }

  /** Without any comma, `rfind` gives -1: the text loses its last character and is repeated after `conj`. */
  lemma ReplaceCommaAbsent(s: string, conj: string)
    requires ',' !in s
    ensures ReplaceLastComma(s, conj) == (if |s| == 0 then "" else s[..|s| - 1]) + conj + s
  {
  }

  /** Joining comma-free items with a comma-free separator produces no comma. */
  lemma {:induction false} JoinCommaFree(items: seq<string>, sep: string)
    requires CommaFree(items) && ',' !in sep
    ensures ',' !in Join(items, sep)
    decreases |items|
  {
    if |items| > 1 {
      var init := items[..|items| - 1];
      assert forall i | 0 <= i < |init| :: init[i] == items[i];
      JoinCommaFree(init, sep);
    }
  }

  /**
   * For two or more comma-free names the script's list is the intended one:
   * every name in order, ", " between them and " and " before the last.
   */
  lemma ScriptJoinMany(names: seq<string>)
    requires |names| >= 2 && CommaFree(names)
    ensures ScriptJoin(names) == AndJoin(names)
    ensures ScriptJoin(names) == Join(names[..|names| - 1], ", ") + " and " + names[|names| - 1]
  {
    var init := names[..|names| - 1];
    var last := names[|names| - 1];
    var a := Join(init, ", ");
    assert ',' !in last;
    assert Join(names, ", ") == a + ", " + last;
    CommaSpace(a, last);
    ReplaceCommaBetween(a, " " + last, " and");
    assert ScriptJoin(names) == a + " and" + (" " + last);
    assert a + " and" + (" " + last) == a + " and " + last;
  }

  /** Both ways of printing a list agree on two or more comma-free names (`ScriptJoinOne` and `ScriptJoinEmpty` show where they part). */
  lemma NameListAgree(names: seq<string>)
    requires |names| >= 2 && CommaFree(names)
    ensures NameList(names, true) == NameList(names, false)
  {
    ScriptJoinMany(names);
  }

  /** The date list of two or more comma-free dates: "," between them and " and " before the last. */
  lemma DateJoinMany(dates: seq<string>)
    requires |dates| >= 2 && CommaFree(dates)
    ensures DateJoin(dates) == Join(dates[..|dates| - 1], ",") + " and " + dates[|dates| - 1]
  {
    ReplaceCommaBetween(Join(dates[..|dates| - 1], ","), dates[|dates| - 1], " and ");
  }

  /** Replacing in the empty text leaves just the conjunction. */
  lemma ReplaceInEmpty(conj: string)
    ensures ReplaceLastComma("", conj) == conj
  {
    assert RFind("", ',') == -1;
    assert SliceTo("", -1) == "" && SliceFrom("", 0) == "";
  }

  /** No names: `rfind` returns -1 on the empty text and the script's list is the bare " and". */
  lemma ScriptJoinEmpty()
    ensures ScriptJoin([]) == " and"
  {
    ReplaceInEmpty(" and");
  }

  /**
   * One name: `rfind` finds no comma and returns -1, so the script's slicing
   * drops the last character and repeats the name ("Texas" becomes "Texa andTexas").
   */
  lemma ScriptJoinOne(name: string)
    requires ',' !in name && |name| > 0
    ensures ScriptJoin([name]) == name[..|name| - 1] + " and" + name
  {
    assert Join([name], ", ") == name;
    ReplaceCommaAbsent(name, " and");
  }

  /** A concrete single-name list on which the script and the intended list disagree. */
  lemma ScriptJoinSingleNameDiffers()
    ensures ScriptJoin(["Texas"]) == "Texa andTexas"
    ensures AndJoin(["Texas"]) == "Texas"
  {
    ScriptJoinOne("Texas");
  }

  /** The intended list never garbles short input: no names give "", one name gives that name. */
  lemma AndJoinFew(name: string)
    ensures AndJoin([]) == ""
    ensures AndJoin([name]) == name
  {
  }

  /**
   * Reads a ", "-separated list back into its items, splitting at commas from
   * the right: the partner of `Join` used to show that joining keeps every item, in order.
   */
  function SplitCommaSpace(s: string): seq<string>
    decreases |s|
  {
    var i := RFind(s, ',');
    if i < 0 then [s]
    else SplitCommaSpace(s[..i]) + [s[(if i + 2 <= |s| then i + 2 else |s|)..]]
  }

  /** Splitting `a + ", " + b` with no comma in `b` splits off `b` and continues on `a`. */
  lemma SplitStep(a: string, b: string)
    requires ',' !in b
    ensures SplitCommaSpace(a + ", " + b) == SplitCommaSpace(a) + [b]
  {
    var s := a + ", " + b;
    CommaSpace(a, b);
    RFindBetween(a, " " + b);
    AroundComma(a, " " + b);
    assert s[|a| + 2..] == (" " + b)[1..] == b;
  }

  /** Joining comma-free items with ", " and splitting again gives back exactly the items. */
  lemma {:induction false} SplitJoin(items: seq<string>)
    requires |items| >= 1 && CommaFree(items)
    ensures SplitCommaSpace(Join(items, ", ")) == items
    decreases |items|
  {
    if |items| == 1 {
      assert ',' !in items[0];
    } else {
      var init := items[..|items| - 1];
      var last := items[|items| - 1];
      assert forall i | 0 <= i < |init| :: init[i] == items[i];
      SplitJoin(init);
      SplitStep(Join(init, ", "), last);
      assert items == init + [last];
    }
  }
}

=== FILE: markup.dfy ===
/**
 * The fixed list-item markup that every narrative sentence of the report is
 * wrapped in before it is substituted into the e-mail template.
 */
module Markup {

  import opened Outcomes

  /** A template with a single `{placeholder}` slot: the text before it and the text after it. */
  datatype Template = Template(before: string, after: string)

  /** Text of the list-item template before the `{placeholder}` slot. */
  const Opening: string :=
    "<li><p style=\"margin: 0; font-size: 16px; line-height: 1.2; word-break: break-word; margin-top: 5px; margin-bottom: 5px;\">\n                            <span style=\"font-size: 16px;\">"

  /** Text of the list-item template after the `{placeholder}` slot. */
  const Closing: string := "</span></p></li>"

  const ListItem: Template := Template(Opening, Closing)

  /** One observation instantiated into a template. */
  function Fill(t: Template, observation: string): string {
    t.before + observation + t.after
  }

  /** Every observation filled into `t`, concatenated in input order with no separator. */
  function FillAll(t: Template, observations: seq<string>): string {
    if |observations| == 0 then ""
    else FillAll(t, observations[..|observations| - 1]) + Fill(t, observations[|observations| - 1])
  }

  /** The report's wrapper: each observation becomes one styled list item. */
  function PTagWrap(observations: seq<string>): string {
    FillAll(ListItem, observations)
  }

  /** True when `pattern` occurs in `s` starting at position `i`. */
  predicate OccursAt(pattern: string, s: string, i: int) {
    0 <= i && i + |pattern| <= |s| && s[i..i + |pattern|] == pattern
  }

  /** True when `pattern` occurs nowhere in `s`. */
  predicate Free(pattern: string, s: string) {
    forall i | 0 <= i <= |s| - |pattern| :: !OccursAt(pattern, s, i)
  }

  /** No proper suffix of `c` is also a prefix of it, so two matches of `c` never overlap. */
  predicate Borderless(c: string) {
    forall d | 0 < d < |c| :: c[d..] != c[..|c| - d]
  }

  /** Index of the first occurrence of `pattern` in `s` at or after `from`. */
  function FindFrom(pattern: string, s: string, from: nat): (r: Option<nat>)
    requires from <= |s|
    ensures r.Some? ==> from <= r.value && OccursAt(pattern, s, r.value)
    ensures r.Some? ==> forall j | from <= j < r.value :: !OccursAt(pattern, s, j)
    ensures r.None? ==> forall j | from <= j :: !OccursAt(pattern, s, j)
    decreases |s| - from
  {
    if from + |pattern| > |s| then None
    else if s[from..from + |pattern|] == pattern then Some(from)
    else FindFrom(pattern, s, from + 1)
  }

  /**
   * Cuts the first filled item off the front of `s`: the text between the
   * opening and the first closing after it, and what follows that closing.
   */
  function SplitItem(t: Template, s: string): (r: Option<(string, string)>)
    ensures r.Some? ==> |r.value.1| < |s|
  {
    if |t.after| == 0 || |s| < |t.before| || s[..|t.before|] != t.before then None
    else
      match FindFrom(t.after, s, |t.before|)
      case None => None
      case Some(j) => Some((s[|t.before|..j], s[j + |t.after|..]))
  }

  /**
   * Reads a filled fragment back into its observations: the partner of
   * FillAll used to state that the fragment holds one item per input.
   */
  function Unfill(t: Template, s: string): Option<seq<string>>
    decreases |s|
  {
    if |s| == 0 then Some([])
    else
      match SplitItem(t, s)
      case None => None
      case Some(cut) =>
        match Unfill(t, cut.1)
        case None => None
        case Some(rest) => Some([cut.0] + rest)
  }

  /** Wrapping nothing yields the empty fragment; wrapping one sentence yields exactly one list item. */
  lemma PTagWrapSmall(observation: string)
    ensures PTagWrap([]) == ""
    ensures PTagWrap([observation]) == Opening + observation + Closing
  {
    assert [observation][..0] == [];
  }

  /** Filling distributes over concatenation of observation lists. */
  lemma {:induction false} FillAllAppend(t: Template, xs: seq<string>, ys: seq<string>)
    ensures FillAll(t, xs + ys) == FillAll(t, xs) + FillAll(t, ys)
    decreases |ys|
  {
    if |ys| == 0 {
      assert xs + ys == xs;
    } else {
      var init := ys[..|ys| - 1];
      assert (xs + ys)[..|xs + ys| - 1] == xs + init;
      FillAllAppend(t, xs, init);
    }
  }

  /** The wrapped report of a concatenation is the concatenation of the wrapped reports. */
  lemma PTagWrapAppend(xs: seq<string>, ys: seq<string>)
    ensures PTagWrap(xs + ys) == PTagWrap(xs) + PTagWrap(ys)
  {
    FillAllAppend(ListItem, xs, ys);
  }

  /** The sum of the observations' lengths. */
  function TotalLength(observations: seq<string>): nat {
    if |observations| == 0 then 0
    else TotalLength(observations[..|observations| - 1]) + |observations[|observations| - 1]|
  }

  /** The fragment is one template's worth of markup per observation plus the observations' own text. */
  lemma {:induction false} PTagWrapLength(observations: seq<string>)
    ensures |PTagWrap(observations)| == |observations| * (|Opening| + |Closing|) + TotalLength(observations)
    decreases |observations|
  {
    if |observations| > 0 {
      PTagWrapLength(observations[..|observations| - 1]);
    }
  }

  /** A borderless pattern matched at `j` cannot also match at an `i` it overlaps from the left. */
  lemma NoOverlap(c: string, s: string, i: int, j: int)
    requires Borderless(c) && OccursAt(c, s, j)
    requires 0 <= i < j < i + |c|
    ensures !OccursAt(c, s, i)
  {
    var d := j - i;
    assert c[d..] != c[..|c| - d];
    var t :| 0 <= t < |c| - d && c[d..][t] != c[..|c| - d][t];
    assert s[j..j + |c|][t] == c[t];
    assert s[j + t] != c[d + t];
    if i + |c| <= |s| {
      assert s[i..i + |c|][d + t] != c[d + t];
    }
  }

  /** In `b + x + c + rest`, when `x` holds no `c` and `c` is borderless, the first `c` after `b` starts right after `x`. */
  lemma FirstMatch(b: string, x: string, c: string, rest: string)
    requires Borderless(c) && Free(c, x)
    ensures FindFrom(c, b + x + c + rest, |b|) == Some(|b| + |x|)
  {
    var s := b + x + c + rest;
    var j := |b| + |x|;
    assert s[j..j + |c|] == c;
    forall i | |b| <= i < j
      ensures !OccursAt(c, s, i)
    {
      if OccursAt(c, s, i) {
        var k := i - |b|;
        if k + |c| <= |x| {
          // The match would lie wholly inside x.
          assert x[k..k + |c|] == s[i..i + |c|];
          assert OccursAt(c, x, k);
        } else {
          // The match would overlap the real `c` by fewer characters than its length.
          NoOverlap(c, s, i, j);
        }
      }
    }
    var r := FindFrom(c, s, |b|);
    if r.None? || r.value > j {
      assert OccursAt(c, s, j);
    }
  }

  /** The pieces of `b + x + c + tail`, cut back out. */
  lemma Pieces(b: string, x: string, c: string, tail: string)
    ensures (b + x + c + tail)[..|b|] == b
    ensures (b + x + c + tail)[|b|..|b| + |x|] == x
    ensures (b + x + c + tail)[|b| + |x| + |c|..] == tail
  {
  }

  /** Reading back one filled item followed by further fragment text. */
  lemma UnfillStep(t: Template, x: string, tail: string)
    requires |t.after| > 0 && Borderless(t.after) && Free(t.after, x)
    ensures Unfill(t, tail).None? ==> Unfill(t, Fill(t, x) + tail).None?
    ensures Unfill(t, tail).Some? ==> Unfill(t, Fill(t, x) + tail) == Some([x] + Unfill(t, tail).value)
  {
    var s := t.before + x + t.after + tail;
    var j := |t.before| + |x|;
    assert FindFrom(t.after, s, |t.before|) == Some(j) by {
      FirstMatch(t.before, x, t.after, tail);
    }
    assert s[..|t.before|] == t.before && s[|t.before|..j] == x && s[j + |t.after|..] == tail by {
      Pieces(t.before, x, t.after, tail);
    }
    assert SplitItem(t, s) == Some((x, tail));
    assert Fill(t, x) + tail == s;
  }

  /** Generic round trip for any template whose closing text is non-empty and borderless. */
  lemma {:induction false} UnfillFillAll(t: Template, observations: seq<string>)
    requires |t.after| > 0 && Borderless(t.after)
    requires forall i | 0 <= i < |observations| :: Free(t.after, observations[i])
    ensures Unfill(t, FillAll(t, observations)) == Some(observations)
    decreases |observations|
  {
    if |observations| > 0 {
      var x := observations[0];
      var rest := observations[1..];
      assert observations == [x] + rest;
      FillAllAppend(t, [x], rest);
      assert [x][..0] == [];
      assert FillAll(t, [x]) == Fill(t, x);
      UnfillFillAll(t, rest);
      UnfillStep(t, x, FillAll(t, rest));
    }
  }

  /** The closing markup `</span></p></li>` cannot overlap itself. */
  lemma ClosingBorderless()
    ensures Borderless(Closing)
  {
    forall d | 0 < d < |Closing|
      ensures Closing[d..] != Closing[..|Closing| - d]
    {
      if d == 7 || d == 11 {
        assert Closing[d..][2] != Closing[..|Closing| - d][2];
      } else {
        assert Closing[d..][0] != Closing[..|Closing| - d][0];
      }
    }
  }

  /**
   * Round trip: as long as no observation contains the closing markup, the
   * wrapped fragment reads back into exactly the observations, one list item each.
   */
  lemma UnwrapPTagWrap(observations: seq<string>)
    requires forall i | 0 <= i < |observations| :: Free(Closing, observations[i])
    ensures Unfill(ListItem, PTagWrap(observations)) == Some(observations)
  {
    ClosingBorderless();
    UnfillFillAll(ListItem, observations);
  }
}

=== FILE: outcomes.dfy ===
/** Failure-carrying wrappers shared by the whole model. */
module Outcomes {

  /** A value that may be absent (a missing row after a left merge, an empty column). */
  datatype Option<+T> = None | Some(value: T)

  /** The outcome of a step that can raise in the report script. */
  datatype Result<+R, +E> = Success(value: R) | Failure(error: E) {
    predicate IsFailure() {
      Failure?
    }

    function PropagateFailure<U>(): Result<U, E>
      requires Failure?
    {
      Failure(error)
    }

    function Extract(): R
      requires Success?
    {
      value
    }
  }

  /** The failures the report script can raise on the paths this model covers. */
  datatype ReportError =
    | EmptyTable                          // the maximum of an empty creation-date column
    | UnknownAbbreviation(code: string)   // a state code missing from the name table
    | UndefinedDeviation                  // `int()` of the NaN deviation of fewer than two values
}

=== FILE: percent.dfy ===
/**
 * Percent changes as the report's data frame holds them: exact reals where
 * the division is defined, and the infinities and NaN that the frame's
 * division produces otherwise, with Python's comparison semantics for each.
 */
module Percent {

  import opened Outcomes

  /** A floating value of the percent-change column: a number, an infinity, or NaN. */
  datatype Pct = Num(v: real) | PosInf | NegInf | NaN

  /** The constant the report adds to every percent change before classifying it. */
  const Offset: real := 10.0

  /** Bucket edges: above `Edge` is high, below `-Edge` is low. */
  const Edge: real := 5.0

  /** The three classes the maps are coloured by. */
  datatype Bucket = Low | Medium | High

  /** Python's `p > x`: true of +inf, false of -inf and NaN. */
  predicate Above(p: Pct, x: real) {
    match p
    case Num(v) => v > x
    case PosInf => true
    case NegInf => false
    case NaN => false
  }

  /** Python's `p < x`: true of -inf, false of +inf and NaN. */
  predicate Below(p: Pct, x: real) {
    match p
    case Num(v) => v < x
    case PosInf => false
    case NegInf => true
    case NaN => false
  }

  /** Python's chained `lo <= p <= hi`: only numbers can pass. */
  predicate Within(p: Pct, lo: real, hi: real) {
    p.Num? && lo <= p.v <= hi
  }

  /** The baseline value grown by `v` percent. */
  function Grow(baseline: int, v: real): real {
    baseline as real + baseline as real * v / 100.0
  }

  /**
   * `(current - baseline) * 100 / baseline` per state. A state missing from
   * the baseline (the left merge leaves NaN) gives NaN; a zero baseline
   * gives an infinity with the sign of the current value, or NaN for 0 / 0.
   */
  function PercentChange(current: int, baseline: Option<int>): (p: Pct)
    ensures baseline.None? ==> p == NaN
    ensures baseline.Some? && baseline.value != 0 ==> p.Num? && Grow(baseline.value, p.v) == current as real
    ensures baseline == Some(0) ==> (p == PosInf <==> current > 0) && (p == NegInf <==> current < 0)
                                    && (p == NaN <==> current == 0)
  {
    match baseline
    case None => NaN
    case Some(b) =>
      if b != 0 then Num((current - b) as real * 100.0 / b as real)
      else if current > 0 then PosInf
      else if current < 0 then NegInf
      else NaN
  }

  /** `p + k` in floating arithmetic: infinities and NaN absorb the constant. */
  function Plus(p: Pct, k: real): (q: Pct)
    ensures q.Num? <==> p.Num?
    ensures q.Num? ==> q.v - k == p.v
    ensures !p.Num? ==> q == p
  {
    match p
    case Num(v) => Num(v + k)
    case _ => p
  }

  /** Round to the nearest integer, ties to the even neighbour, as numpy's rounding does. */
  function RoundHalfEven(y: real): (n: int)
    ensures -0.5 <= n as real - y <= 0.5
    ensures n as real - y == 0.5 || n as real - y == -0.5 ==> n % 2 == 0
  {
    var f := y.Floor;
    var frac := y - f as real;
    if frac < 0.5 then f
    else if frac > 0.5 then f + 1
    else if f % 2 == 0 then f
    else f + 1
  }

  /** `np.round(p, 1)`: round a number to one decimal place; infinities and NaN stay. */
  function Round1(p: Pct): (q: Pct)
    ensures q.Num? <==> p.Num?
    ensures q.Num? ==> -0.05 <= q.v - p.v <= 0.05
    ensures q.Num? ==> (q.v * 10.0).Floor as real == q.v * 10.0
    ensures q.Num? && (q.v - p.v == 0.05 || q.v - p.v == -0.05) ==> (q.v * 10.0).Floor % 2 == 0
    ensures !p.Num? ==> q == p
  {
    match p
    case Num(v) =>
      var n := RoundHalfEven(v * 10.0);
      var w := n as real / 10.0;
      assert w * 10.0 == n as real;
      assert (w - v) * 10.0 == n as real - v * 10.0;
      Num(w)
    case _ => p
  }

  /** The script's `CalcRange`: high above 5, medium from -5 to 5 inclusive, low otherwise (NaN included). */
  function Classify(p: Pct): (b: Bucket)
    ensures b == High <==> Above(p, Edge)
    ensures b == Medium <==> Within(p, -Edge, Edge)
    ensures b == Low <==> Below(p, -Edge) || p == NaN
  {
    if Above(p, Edge) then High
    else if Within(p, -Edge, Edge) then Medium
    else Low
  }

  /** The change column as the script finishes it: offset by +10, then rounded to one decimal place. */
  function ReportedChange(current: int, baseline: Option<int>): Pct {
    Round1(Plus(PercentChange(current, baseline), Offset))
  }

  /**
   * Rounding happens before bucketing, so it can move a change across an
   * edge: a change just above 5, below 5.05, rounds to 5.0 and is medium, not high.
   */
  lemma RoundingDemotesHigh(v: real)
    requires 5.0 < v < 5.05
    ensures Classify(Num(v)) == High
    ensures Round1(Num(v)) == Num(5.0)
    ensures Classify(Round1(Num(v))) == Medium
  {
    assert (v * 10.0).Floor == 50;
  }

  /**
   * An exact tie at a bucket edge goes to the even tenth: 1901 against 2000
   * changes by -4.95, reported as 5.05 before rounding, then 5.0, which is
   * medium, where rounding half up would give the high 5.1.
   */
  lemma TieAtEdgeIsMedium()
    ensures Plus(PercentChange(1901, Some(2000)), Offset) == Num(5.05)
    ensures ReportedChange(1901, Some(2000)) == Num(5.0)
    ensures Classify(ReportedChange(1901, Some(2000))) == Medium
  {
    assert RoundHalfEven(50.5) == 50;
  }

  /** On a number the buckets split the real line at the two edges, both edges medium. */
  lemma ClassifyNumber(v: real)
    ensures Classify(Num(v)) == High <==> v > 5.0
    ensures Classify(Num(v)) == Medium <==> -5.0 <= v <= 5.0
    ensures Classify(Num(v)) == Low <==> v < -5.0
    ensures Classify(Num(5.0)) == Medium && Classify(Num(-5.0)) == Medium
  {
  }

  /** A state with no baseline is coloured low: NaN fails both comparisons of the classification. */
  lemma MissingBaselineIsLow(current: int)
    ensures ReportedChange(current, None) == NaN
    ensures Classify(ReportedChange(current, None)) == Low
  {
  }

  /** An unchanged nonzero booking total reports exactly the offset, 10, and is classified high. */
  lemma UnchangedIsTen(total: int)
    requires total != 0
    ensures ReportedChange(total, Some(total)) == Num(10.0)
    ensures Classify(ReportedChange(total, Some(total))) == High
  {
    assert PercentChange(total, Some(total)) == Num(0.0);
    assert RoundHalfEven(100.0) == 100;
  }

  /** The sort order of the change column: -inf, then numbers by value, then +inf, with NaN placed last. */
  function Rank(p: Pct): nat {
    match p
    case NegInf => 0
    case Num(_) => 1
    case PosInf => 2
    case NaN => 3
  }

  /**
   * `p` sorts no later than `q` in ascending order. A descending sort by this
   * order would put NaN first, where `sort_values` puts it last in both
   * directions; no descending use meets a NaN, because the highest list keeps
   * only changes above 0 and the year-to-date averages are all numbers.
   */
  predicate AtMost(p: Pct, q: Pct) {
    Rank(p) < Rank(q) || (Rank(p) == Rank(q) && (p.Num? ==> p.v <= q.v))
  }

  /** `AtMost` is a total preorder. */
  lemma AtMostPreorder(p: Pct, q: Pct, r: Pct)
    ensures AtMost(p, p)
    ensures AtMost(p, q) || AtMost(q, p)
    ensures AtMost(p, q) && AtMost(q, r) ==> AtMost(p, r)
  {
  }

  /**
   * Adding the offset never reorders two changes, so sorting before the +10
   * (the 2019 comparison) or after it (the previous-week comparison) gives the same order.
   */
  lemma OffsetKeepsOrder(p: Pct, q: Pct)
    ensures AtMost(p, q) <==> AtMost(Plus(p, Offset), Plus(q, Offset))
  {
  }

  /** Rounding to an integer is monotone, ties to even included. */
  lemma RoundHalfEvenMonotone(x: real, y: real)
    requires x <= y
    ensures RoundHalfEven(x) <= RoundHalfEven(y)
  {
    if x.Floor < y.Floor {
      assert RoundHalfEven(x) <= x.Floor + 1 <= y.Floor <= RoundHalfEven(y);
    }
  }

  /** Rounding never reverses the order of two changes. */
  lemma RoundKeepsOrder(p: Pct, q: Pct)
    requires AtMost(p, q)
    ensures AtMost(Round1(p), Round1(q))
  {
    if p.Num? && q.Num? {
      RoundHalfEvenMonotone(p.v * 10.0, q.v * 10.0);
    }
  }

  /** The sign tests that pick the lowest and highest states: a change of exactly 0, and NaN, pass neither. */
  lemma SignTests(p: Pct)
    ensures Below(p, 0.0) ==> !Above(p, 0.0)
    ensures p == Num(0.0) || p == NaN ==> !Below(p, 0.0) && !Above(p, 0.0)
  {
  }
}

=== FILE: ranking.dfy ===
/**
 * Picking the states at the top or the bottom of a column: the report's
 * `filter, sort_values, head()` chains. The sort the script uses is not
 * stable, so nothing is promised about the order of equal values.
 */
module Ranking {

  import opened Percent

  /** How many states a list sentence names: `head()` keeps five rows. */
  const ListSize: nat := 5

  datatype Order = Ascending | Descending

  /** The filter applied before sorting: `< 0`, `> 0`, or none. */
  datatype Sign = Negative | Positive | AnySign

  predicate Qualifies(sign: Sign, p: Pct) {
    match sign
    case Negative => Below(p, 0.0)
    case Positive => Above(p, 0.0)
    case AnySign => true
  }

  /** `p` may come before `q` in a sort by `order`. */
  predicate Precedes(order: Order, p: Pct, q: Pct) {
    match order
    case Ascending => AtMost(p, q)
    case Descending => AtMost(q, p)
  }

  lemma PrecedesPreorder(order: Order, p: Pct, q: Pct, r: Pct)
    ensures Precedes(order, p, q) || Precedes(order, q, p)
    ensures Precedes(order, p, q) && Precedes(order, q, r) ==> Precedes(order, p, r)
  {
    AtMostPreorder(p, q, r);
    AtMostPreorder(r, q, p);
  }

  /** The keys whose value passes the sign filter. */
  function Eligible(values: map<string, Pct>, sign: Sign): set<string> {
    set k | k in values && Qualifies(sign, values[k])
  }

  function Min(a: int, b: int): int {
    if a <= b then a else b
  }

  /** A key of `pool` whose value comes first in `order`. */
  method PickFirst(values: map<string, Pct>, pool: set<string>, order: Order) returns (best: string)
    requires pool != {} && pool <= values.Keys
    ensures best in pool
    ensures forall k | k in pool :: Precedes(order, values[best], values[k])
  {
    best :| best in pool;
    var rest := pool - {best};
    PrecedesPreorder(order, values[best], values[best], values[best]);
    while rest != {}
      invariant rest <= pool && best in pool
      invariant forall k | k in pool - rest :: Precedes(order, values[best], values[k])
      decreases rest
    {
      var k :| k in rest;
      PrecedesPreorder(order, values[best], values[k], values[k]);
      if !Precedes(order, values[best], values[k]) {
        forall j | j in pool - rest
          ensures Precedes(order, values[k], values[j])
        {
          PrecedesPreorder(order, values[k], values[best], values[j]);
        }
        best := k;
      }
      rest := rest - {k};
    }
  }

  /**
   * `values[filter].sort_values(order).head(n)`: the first `n` keys of the
   * eligible ones in sort order, or all of them when fewer are eligible.
   */
  method SelectTop(values: map<string, Pct>, sign: Sign, order: Order, n: nat) returns (picked: seq<string>)
    ensures |picked| == Min(n, |Eligible(values, sign)|)
    ensures forall i | 0 <= i < |picked| :: picked[i] in Eligible(values, sign)
    ensures forall i, j | 0 <= i < j < |picked| :: picked[i] != picked[j]
    ensures forall i, j | 0 <= i < j < |picked| :: Precedes(order, values[picked[i]], values[picked[j]])
    ensures forall i, k | 0 <= i < |picked| && k in Eligible(values, sign) && k !in picked ::
              Precedes(order, values[picked[i]], values[k])
    ensures |Eligible(values, sign)| <= n ==> forall k | k in Eligible(values, sign) :: k in picked
  {
    var all := Eligible(values, sign);
    var remaining := all;
    picked := [];
    while |picked| < n && remaining != {}
      invariant |picked| <= n
      invariant remaining <= all
      invariant |picked| + |remaining| == |all|
      invariant forall i | 0 <= i < |picked| :: picked[i] in all && picked[i] !in remaining
      invariant forall k | k in all && k !in remaining :: k in picked
      invariant forall i, j | 0 <= i < j < |picked| :: picked[i] != picked[j]
      invariant forall i, j | 0 <= i < j < |picked| :: Precedes(order, values[picked[i]], values[picked[j]])
      invariant forall i, k | 0 <= i < |picked| && k in remaining :: Precedes(order, values[picked[i]], values[k])
      decreases remaining
    {
      var best := PickFirst(values, remaining, order);
      picked := picked + [best];
      remaining := remaining - {best};
    }
    assert |all| <= n ==> remaining == {};
  }
}

=== FILE: report.dfy ===
/**
 * The two comparison sections of the report: this week against last week
 * and this week against the same week of 2019. Each keeps the latest
 * snapshot of the table, totals per state, ranks the changes and turns the
 * five lowest and five highest into sentences.
 */
module Report {

  import opened Outcomes
  import opened Bookings
  import opened Windows
  import opened Percent
  import opened Ranking
  import opened StateNames
  import opened Joining
  import opened Markup

  /** One state's line of a comparison: the two totals, the reported change and its bucket. */
  datatype Entry = Entry(current: int, baseline: Option<int>, change: Pct, bucket: Bucket)

  /** The sentence frames of one comparison section: text before and after each list of names. */
  datatype Phrasing = Phrasing(lowBefore: string, lowAfter: string, highBefore: string, highAfter: string)

  /** A finished section: the states named, the sentences in order, and the wrapped markup. */
  datatype Section = Section(lowStates: seq<string>, highStates: seq<string>, sentences: seq<string>, markup: string)

  const Year2019Phrasing: Phrasing := Phrasing(
    "The States ", " record lowest percentage bookings as compared to year 2019.",
    "The States ", " record maximum percentage increase in booking as compared to 2019.")

  const LastWeekPhrasing: Phrasing := Phrasing(
    "", " record lowest percentage bookings as compared to last week.",
    "", " record highest percentage bookings as compared to last week.")

  function StateCodeOf(r: BookingRecord): string {
    r.stateCode
  }

  function StateOf(r: BookingRecord): string {
    r.state
  }

  /** The condition "the row is in the snapshot created on `latest` and dated inside `w`". */
  function InWindow(latest: int, w: Window): BookingRecord -> bool {
    (r: BookingRecord) => r.modelCreationDate == latest && Contains(w, r.date)
  }

  /** The condition "... and belongs to the state with code `code`". */
  function StateInWindow(latest: int, w: Window, code: string): BookingRecord -> bool {
    (r: BookingRecord) => r.modelCreationDate == latest && Contains(w, r.date) && r.stateCode == code
  }

  /** True when some row of the snapshot, dated inside `w`, has state code `code`. */
  predicate StateHasRows(rows: seq<BookingRecord>, latest: int, w: Window, code: string) {
    exists i | 0 <= i < |rows| :: StateInWindow(latest, w, code)(rows[i])
  }

  /**
   * The per-state booking totals of the snapshot `latest` over the window
   * `w`: a state appears exactly when it has a row there, and its total is
   * the sum over those rows; no other row contributes.
   */
  method WindowTotals(rows: seq<BookingRecord>, latest: int, w: Window) returns (totals: map<string, int>)
    ensures forall code :: code in totals <==> StateHasRows(rows, latest, w, code)
    ensures forall code | code in totals :: totals[code] == Summarize(rows, StateInWindow(latest, w, code)).sum
  {
    var selected := Where(rows, InWindow(latest, w));
    var groups := GroupBy(selected, StateCodeOf);
    totals := map code | code in groups :: groups[code].sum;
    forall code
      ensures code in totals <==> StateHasRows(rows, latest, w, code)
      ensures code in totals ==> totals[code] == Summarize(rows, StateInWindow(latest, w, code)).sum
    {
      GroupOfSelection(rows, InWindow(latest, w), StateCodeOf, code, StateInWindow(latest, w, code));
    }
  }

  /** The line of one state, from its current total and its baseline total if it has one. */
  function MakeEntry(current: int, baseline: Option<int>): Entry {
    var change := ReportedChange(current, baseline);
    Entry(current, baseline, change, Classify(change))
  }

  /** The baseline total of a state: the sum over its rows in `w`, or none when it has no row there (the left merge). */
  function BaselineTotal(rows: seq<BookingRecord>, latest: int, w: Window, code: string): Option<int> {
    if StateHasRows(rows, latest, w, code) then Some(Summarize(rows, StateInWindow(latest, w, code)).sum) else None
  }

  /** The states of a comparison table: exactly those with rows of the snapshot `latest` in `current`. */
  ghost predicate MergedKeys(rows: seq<BookingRecord>, latest: int, current: Window, table: map<string, Entry>) {
    forall code :: code in table <==> StateHasRows(rows, latest, current, code)
  }

  /**
   * The lines of a comparison table, as the left merge of the per-state totals
   * over `current` with those over `base` makes them: both totals, and the
   * change and bucket computed from them.
   */
  ghost predicate MergedLines(rows: seq<BookingRecord>, latest: int, current: Window, base: Window, table: map<string, Entry>) {
    forall code | code in table ::
      table[code] == MakeEntry(Summarize(rows, StateInWindow(latest, current, code)).sum,
                               BaselineTotal(rows, latest, base, code))
  }

  /**
   * One comparison section's table: totals of the week `week(latest)` and of
   * the same week moved back `shift` days, left-merged on the current states,
   * with the offset, rounded change and bucket of each. `latest` is the
   * snapshot the table is read from; an empty table has none, and the script
   * fails parsing it.
   */
  method Compare(rows: seq<BookingRecord>, week: int -> Window, shift: int)
    returns (res: Result<map<string, Entry>, ReportError>, latest: Option<int>)
    ensures |rows| == 0 ==> res == Failure(EmptyTable)
    ensures |rows| > 0 ==> res.Success?
    ensures res.Success? ==> latest.Some? && MergedKeys(rows, latest.value, week(latest.value), res.value)
    ensures res.Success? ==>
              latest.Some? && MergedLines(rows, latest.value, week(latest.value), Shift(week(latest.value), shift), res.value)
    ensures latest.Some? <==> |rows| > 0
    ensures latest.Some? ==> IsLatest(rows, latest.value)
  {
    latest := LatestCreation(rows);
    if latest.None? {
      return Failure(EmptyTable), latest;
    }
    var current := week(latest.value);
    var cur := WindowTotals(rows, latest.value, current);
    var base := WindowTotals(rows, latest.value, Shift(current, shift));
    res := Success(map code | code in cur :: MakeEntry(cur[code], if code in base then Some(base[code]) else None));
  }

  /**
   * The this-week-against-last-week table. A state whose total equals its
   * nonzero last-week total reports exactly 10 and is bucketed high.
   */
  method CompareLastWeek(rows: seq<BookingRecord>) returns (res: Result<map<string, Entry>, ReportError>, latest: Option<int>)
    ensures |rows| == 0 ==> res == Failure(EmptyTable)
    ensures |rows| > 0 ==> res.Success?
    ensures res.Success? ==> latest.Some? && MergedKeys(rows, latest.value, ThisWeek(latest.value), res.value)
    ensures res.Success? ==>
              latest.Some? && MergedLines(rows, latest.value, ThisWeek(latest.value), LastWeek(latest.value), res.value)
    ensures res.Success? ==>
              forall code | code in res.value && res.value[code].current != 0 &&
                            res.value[code].baseline == Some(res.value[code].current) ::
                res.value[code].change == Num(10.0) && res.value[code].bucket == High
    ensures latest.Some? <==> |rows| > 0
    ensures latest.Some? ==> IsLatest(rows, latest.value)
  {
    res, latest := Compare(rows, ThisWeek, WeekShift);
    if res.Success? {
      forall code | code in res.value && res.value[code].current != 0 &&
                    res.value[code].baseline == Some(res.value[code].current)
        ensures res.value[code].change == Num(10.0) && res.value[code].bucket == High
      {
        UnchangedIsTen(res.value[code].current);
      }
    }
  }

  /** The this-week-against-2019 table, over the intended seven-day weeks. */
  method CompareYear2019(rows: seq<BookingRecord>) returns (res: Result<map<string, Entry>, ReportError>, latest: Option<int>)
    ensures |rows| == 0 ==> res == Failure(EmptyTable)
    ensures |rows| > 0 ==> res.Success?
    ensures res.Success? ==> latest.Some? && MergedKeys(rows, latest.value, ThisWeek(latest.value), res.value)
    ensures res.Success? ==>
              latest.Some? && MergedLines(rows, latest.value, ThisWeek(latest.value), Year2019Week(latest.value), res.value)
    ensures latest.Some? <==> |rows| > 0
    ensures latest.Some? ==> IsLatest(rows, latest.value)
  {
    res, latest := Compare(rows, ThisWeek, YearOverYearShift);
  }

  /**
   * The this-week-against-2019 table as the script computes it: both
   * windows hold a single day, `latest - 2` and the day 731 days before it.
   */
  method CompareYear2019AsWritten(rows: seq<BookingRecord>) returns (res: Result<map<string, Entry>, ReportError>, latest: Option<int>)
    ensures |rows| == 0 ==> res == Failure(EmptyTable)
    ensures |rows| > 0 ==> res.Success?
    ensures res.Success? ==>
              latest.Some? && MergedKeys(rows, latest.value, Window(latest.value - 2, latest.value - 2), res.value)
    ensures res.Success? ==>
              latest.Some? &&
              MergedLines(rows, latest.value, Window(latest.value - 2, latest.value - 2),
                          Window(latest.value - 733, latest.value - 733), res.value)
    ensures latest.Some? <==> |rows| > 0
    ensures latest.Some? ==> IsLatest(rows, latest.value)
  {
    res, latest := Compare(rows, (day: int) => Window(day - ReportLag, day - ReportLag), YearOverYearShift);
  }

  /** The reported change of every state of a comparison table. */
  function Changes(table: map<string, Entry>): (changes: map<string, Pct>)
    ensures changes.Keys == table.Keys
    ensures forall code | code in table :: changes[code] == table[code].change
  {
    map code | code in table :: table[code].change
  }

  /**
   * The names sentence: the states' names looked up in order and listed
   * inside the section's frame, with the script's splice when `asWritten`.
   */
  function NamesSentence(before: string, codes: seq<string>, after: string, asWritten: bool): (r: Result<string, ReportError>)
    ensures r.Success? <==> forall i | 0 <= i < |codes| :: Known(codes[i])
    ensures r.Success? ==> exists names | NamesOf(codes, names) :: r.value == before + NameList(names, asWritten) + after
    ensures r.Failure? ==> exists k | 0 <= k < |codes| :: !Known(codes[k]) && r.error == UnknownAbbreviation(codes[k])
                             && forall j | 0 <= j < k :: Known(codes[j])
  {
    var names :- LookupAll(codes);
    assert NamesOf(codes, names);
    Success(before + NameList(names, asWritten) + after)
  }

  /**
   * For two or more codes the sentence is the same either way: the names
   * come from the table, and no name there contains a comma.
   */
  lemma NamesSentenceAgree(before: string, codes: seq<string>, after: string)
    requires |codes| >= 2
    ensures NamesSentence(before, codes, after, true) == NamesSentence(before, codes, after, false)
  {
    var all := LookupAll(codes);
    if all.Success? {
      var names := all.value;
      forall i | 0 <= i < |names|
        ensures ',' !in names[i]
      {
        LookupCommaFree(codes[i]);
      }
      NameListAgree(names);
    }
  }

  /**
   * `low` lists the (at most five) states with the smallest changes below 0,
   * from the lowest up: no state is listed twice and each listed change is
   * at most that of every negative state left out.
   */
  ghost predicate LowestList(changes: map<string, Pct>, low: seq<string>) {
    && |low| == Min(ListSize, |Eligible(changes, Negative)|)
    && (forall i | 0 <= i < |low| :: low[i] in changes && Below(changes[low[i]], 0.0))
    && (forall i, j | 0 <= i < j < |low| :: low[i] != low[j] && AtMost(changes[low[i]], changes[low[j]]))
    && (forall i, code | 0 <= i < |low| && code in changes && Below(changes[code], 0.0) && code !in low ::
          AtMost(changes[low[i]], changes[code]))
  }

  /**
   * `high` lists the (at most five) states with the largest changes above
   * 0, from the highest down, each at least every positive state left out.
   */
  ghost predicate HighestList(changes: map<string, Pct>, high: seq<string>) {
    && |high| == Min(ListSize, |Eligible(changes, Positive)|)
    && (forall i | 0 <= i < |high| :: high[i] in changes && Above(changes[high[i]], 0.0))
    && (forall i, j | 0 <= i < j < |high| :: high[i] != high[j] && AtMost(changes[high[j]], changes[high[i]]))
    && (forall i, code | 0 <= i < |high| && code in changes && Above(changes[code], 0.0) && code !in high ::
          AtMost(changes[code], changes[high[i]]))
  }

  /**
   * The two lists of a comparison section. A state whose change is exactly
   * 0 or NaN is in neither.
   */
  method RankChanges(changes: map<string, Pct>) returns (low: seq<string>, high: seq<string>)
    ensures LowestList(changes, low)
    ensures HighestList(changes, high)
    ensures forall code | code in changes && !Below(changes[code], 0.0) && !Above(changes[code], 0.0) ::
              code !in low && code !in high
  {
    low := SelectTop(changes, Negative, Ascending, ListSize);
    high := SelectTop(changes, Positive, Descending, ListSize);
  }

  /** The three sentences of a comparison section, from the looked-up names of its two lists. */
  function ComparisonSentences(phrasing: Phrasing, overall: string, lowNames: seq<string>, highNames: seq<string>,
                               asWritten: bool): seq<string> {
    [overall,
     phrasing.lowBefore + NameList(lowNames, asWritten) + phrasing.lowAfter,
     phrasing.highBefore + NameList(highNames, asWritten) + phrasing.highAfter]
  }

  /**
   * What a comparison section yields from its ranked lists: the section when
   * every listed code has a name, otherwise the failure of the first unknown
   * code, looking through the lowest list before the highest.
   */
  ghost predicate SectionFromLists(res: Result<Section, ReportError>, low: seq<string>, high: seq<string>,
                                   phrasing: Phrasing, overall: string, asWritten: bool) {
    && (res.Success? <==> LookupAll(low).Success? && LookupAll(high).Success?)
    && (res.Failure? && LookupAll(low).Failure? ==> res.error == LookupAll(low).error)
    && (res.Failure? && LookupAll(low).Success? ==> res.error == LookupAll(high).error)
    && (res.Success? ==>
          && LookupAll(low).Success? && LookupAll(high).Success?
          && res.value.lowStates == low && res.value.highStates == high
          && res.value.sentences == ComparisonSentences(phrasing, overall, LookupAll(low).value, LookupAll(high).value, asWritten)
          && res.value.markup == PTagWrap(res.value.sentences))
  }

  /**
   * A comparison section: the overall sentence, then the lowest and highest
   * lists as sentences naming the states in full, each one list item of the
   * markup. A state code missing from the names table fails the section.
   */
  method ComparisonSection(changes: map<string, Pct>, phrasing: Phrasing, overall: string, asWritten: bool)
    returns (res: Result<Section, ReportError>, low: seq<string>, high: seq<string>)
    ensures LowestList(changes, low)
    ensures HighestList(changes, high)
    ensures SectionFromLists(res, low, high, phrasing, overall, asWritten)
  {
    low, high := RankChanges(changes);
    var lowSentence := NamesSentence(phrasing.lowBefore, low, phrasing.lowAfter, asWritten);
    if lowSentence.Failure? {
      return Failure(lowSentence.error), low, high;
    }
    var highSentence := NamesSentence(phrasing.highBefore, high, phrasing.highAfter, asWritten);
    if highSentence.Failure? {
      return Failure(highSentence.error), low, high;
    }
    var sentences := [overall, lowSentence.value, highSentence.value];
    res := Success(Section(low, high, sentences, PTagWrap(sentences)));
  }

  /** The week-against-week section of the report, with its overall sentence supplied. */
  method LastWeekReport(rows: seq<BookingRecord>, overall: string, asWritten: bool)
    returns (res: Result<Section, ReportError>, latest: Option<int>, table: map<string, Entry>,
             low: seq<string>, high: seq<string>)
    ensures |rows| == 0 ==> res == Failure(EmptyTable) && table == map[] && low == [] && high == []
    ensures |rows| > 0 ==> LowestList(Changes(table), low) && HighestList(Changes(table), high)
    ensures |rows| > 0 ==> SectionFromLists(res, low, high, LastWeekPhrasing, overall, asWritten)
    ensures latest.Some? ==> MergedKeys(rows, latest.value, ThisWeek(latest.value), table)
    ensures latest.Some? ==> MergedLines(rows, latest.value, ThisWeek(latest.value), LastWeek(latest.value), table)
    ensures latest.Some? <==> |rows| > 0
    ensures latest.Some? ==> IsLatest(rows, latest.value)
  {
    var compared;
    compared, latest := CompareLastWeek(rows);
    if compared.Failure? {
      return Failure(compared.error), latest, map[], [], [];
    }
    table := compared.value;
    res, low, high := ComparisonSection(Changes(table), LastWeekPhrasing, overall, asWritten);
  }

  /**
   * The two windows of the 2019 section: as written, the single days
   * `latest - 2` and 731 days before it; as intended, this week and the
   * same week of 2019.
   */
  function Year2019Windows(latest: int, asWritten: bool): (Window, Window) {
    if asWritten then (Window(latest - 2, latest - 2), Window(latest - 733, latest - 733))
    else (ThisWeek(latest), Year2019Week(latest))
  }

  /** The week-against-2019 section of the report, with its overall sentence supplied. */
  method Year2019Report(rows: seq<BookingRecord>, overall: string, asWritten: bool)
    returns (res: Result<Section, ReportError>, latest: Option<int>, table: map<string, Entry>,
             low: seq<string>, high: seq<string>)
    ensures |rows| == 0 ==> res == Failure(EmptyTable) && table == map[] && low == [] && high == []
    ensures |rows| > 0 ==> LowestList(Changes(table), low) && HighestList(Changes(table), high)
    ensures |rows| > 0 ==> SectionFromLists(res, low, high, Year2019Phrasing, overall, asWritten)
    ensures latest.Some? ==> MergedKeys(rows, latest.value, Year2019Windows(latest.value, asWritten).0, table)
    ensures latest.Some? ==>
              MergedLines(rows, latest.value, Year2019Windows(latest.value, asWritten).0,
                          Year2019Windows(latest.value, asWritten).1, table)
    ensures latest.Some? <==> |rows| > 0
    ensures latest.Some? ==> IsLatest(rows, latest.value)
  {
    var compared;
    if asWritten {
      compared, latest := CompareYear2019AsWritten(rows);
    } else {
      compared, latest := CompareYear2019(rows);
    }
    if compared.Failure? {
      return Failure(compared.error), latest, map[], [], [];
    }
    table := compared.value;
    res, low, high := ComparisonSection(Changes(table), Year2019Phrasing, overall, asWritten);
  }
}

=== FILE: state_names.dfy ===
/**
 * The fixed abbreviation-to-name table the report uses to print state names,
 * and the lookup that raises when an abbreviation is missing from it.
 */
module StateNames {

  import opened Outcomes

  /** The common start of the three armed-forces region names. */
  const ArmedForces: string := "Armed Forces "

  /** Entries for the states from Alabama to Connecticut, in table order. */
  const StatesAToC: seq<(string, string)> := [
      ("AL", "Alabama"), ("AK", "Alaska"), ("AZ", "Arizona"), ("AR", "Arkansas"),
      ("CA", "California"), ("CO", "Colorado"), ("CT", "Connecticut")
    ]

  /** Entries for the states from Delaware to Iowa, in table order. */
  const StatesDToI: seq<(string, string)> := [
      ("DE", "Delaware"), ("FL", "Florida"), ("GA", "Georgia"), ("HI", "Hawaii"),
      ("ID", "Idaho"), ("IL", "Illinois"), ("IN", "Indiana"), ("IA", "Iowa")
    ]

  /** Entries for the states from Kansas to Montana, in table order. */
  const StatesKToM: seq<(string, string)> := [
      ("KS", "Kansas"), ("KY", "Kentucky"), ("LA", "Louisiana"), ("ME", "Maine"),
      ("MD", "Maryland"), ("MA", "Massachusetts"), ("MI", "Michigan"), ("MN", "Minnesota"),
      ("MS", "Mississippi"), ("MO", "Missouri"), ("MT", "Montana")
    ]

  /** Entries for the states from Nebraska to North Dakota, in table order. */
  const StatesN: seq<(string, string)> := [
      ("NE", "Nebraska"), ("NV", "Nevada"), ("NH", "New Hampshire"), ("NJ", "New Jersey"),
      ("NM", "New Mexico"), ("NY", "New York"), ("NC", "North Carolina"), ("ND", "North Dakota")
    ]

  /** Entries for the states from Ohio to Tennessee, in table order. */
  const StatesOToT: seq<(string, string)> := [
      ("OH", "Ohio"), ("OK", "Oklahoma"), ("OR", "Oregon"), ("PA", "Pennsylvania"),
      ("RI", "Rhode Island"), ("SC", "South Carolina"), ("SD", "South Dakota"), ("TN", "Tennessee")
    ]

  /** Entries for the states from Texas to Wyoming, in table order. */
  const StatesTToW: seq<(string, string)> := [
      ("TX", "Texas"), ("UT", "Utah"), ("VT", "Vermont"), ("VA", "Virginia"),
      ("WA", "Washington"), ("WV", "West Virginia"), ("WI", "Wisconsin"), ("WY", "Wyoming")
    ]

  /** Entries for the federal district and the territories, in table order. */
  const DistrictAndTerritories: seq<(string, string)> := [
      ("DC", "District of Columbia"), ("MP", "Northern Mariana Islands"), ("PW", "Palau"), ("PR", "Puerto Rico"),
      ("VI", "Virgin Islands")
    ]

  /** Entries for the armed-forces postal regions, in table order. */
  const ArmedForcesRegions: seq<(string, string)> := [
      ("AA", ArmedForces + "Americas (Except Canada)"), ("AE", ArmedForces + "Africa/Canada/Europe/Middle East"), ("AP", ArmedForces + "Pacific")
    ]

  /** The whole table, in the order it is written: 58 abbreviations with the name printed for each. */
  const Entries: seq<(string, string)> :=
    StatesAToC +
    StatesDToI +
    StatesKToM +
    StatesN +
    StatesOToT +
    StatesTToW +
    DistrictAndTerritories +
    ArmedForcesRegions

  /** Every abbreviation is two characters long and no printed name contains a comma. */
  predicate WellFormed(entries: seq<(string, string)>) {
    forall i | 0 <= i < |entries| :: |entries[i].0| == 2 && ',' !in entries[i].1
  }

  /** True when `code` is one of the abbreviations of `entries`. */
  predicate KnownIn(entries: seq<(string, string)>, code: string) {
    exists i | 0 <= i < |entries| :: entries[i].0 == code
  }

  /** True when `code` is one of the table's abbreviations. */
  predicate Known(code: string) {
    KnownIn(Entries, code)
  }

  /**
   * Searches `entries` from the back: a dictionary literal with a repeated
   * key keeps the value written last, so the last matching entry is the one a
   * lookup sees.
   */
  function FindLast(entries: seq<(string, string)>, code: string): (r: Option<string>)
    ensures r.Some? <==> KnownIn(entries, code)
    ensures r.Some? ==> exists i | 0 <= i < |entries| :: entries[i] == (code, r.value)
                          && forall j | i < j < |entries| :: entries[j].0 != code
  {
    if |entries| == 0 then None
    else if entries[|entries| - 1].0 == code then Some(entries[|entries| - 1].1)
    else
      var r := FindLast(entries[..|entries| - 1], code);
      assert forall i | 0 <= i < |entries| - 1 :: entries[..|entries| - 1][i] == entries[i];
      r
  }

  /** Looks up one abbreviation; an abbreviation outside the table is the script's KeyError. */
  function Lookup(code: string): (r: Result<string, ReportError>)
    ensures r.Success? <==> Known(code)
    ensures r.Success? ==> exists i | 0 <= i < |Entries| :: Entries[i] == (code, r.value)
    ensures r.Failure? ==> r.error == UnknownAbbreviation(code)
  {
    match FindLast(Entries, code)
    case Some(name) => Success(name)
    case None => Failure(UnknownAbbreviation(code))
  }

  /** `names` are the table's names for `codes`, position by position. */
  predicate NamesOf(codes: seq<string>, names: seq<string>) {
    |names| == |codes| && forall i | 0 <= i < |codes| :: Lookup(codes[i]) == Success(names[i])
  }

  /**
   * Looks up every abbreviation in order, as the list comprehension of the
   * report does; the first abbreviation outside the table aborts the whole list.
   */
  function LookupAll(codes: seq<string>): (r: Result<seq<string>, ReportError>)
    ensures r.Success? <==> forall i | 0 <= i < |codes| :: Known(codes[i])
    ensures r.Success? ==> |r.value| == |codes|
    ensures r.Success? ==> forall i | 0 <= i < |codes| :: Lookup(codes[i]) == Success(r.value[i])
    ensures r.Failure? ==> exists i | 0 <= i < |codes| :: !Known(codes[i]) && r.error == UnknownAbbreviation(codes[i])
                             && forall j | 0 <= j < i :: Known(codes[j])
  {
    if |codes| == 0 then Success([])
    else
      var head :- Lookup(codes[0]);
      var tail :- LookupAll(codes[1..]);
      Success([head] + tail)
  }

  /** Well-formedness of a concatenation follows from that of its parts. */
  lemma WellFormedAppend(a: seq<(string, string)>, b: seq<(string, string)>)
    requires WellFormed(a) && WellFormed(b)
    ensures WellFormed(a + b)
  {
    assert forall i | |a| <= i < |a + b| :: (a + b)[i] == b[i - |a|];
  }

  lemma StatesAToCWellFormed()
    ensures WellFormed(StatesAToC)
  {
  }

  lemma StatesDToIWellFormed()
    ensures WellFormed(StatesDToI)
  {
  }

  lemma StatesKToMWellFormed()
    ensures WellFormed(StatesKToM)
  {
  }

  lemma StatesNWellFormed()
    ensures WellFormed(StatesN)
  {
  }

  lemma StatesOToTWellFormed()
    ensures WellFormed(StatesOToT)
  {
  }

  lemma StatesTToWWellFormed()
    ensures WellFormed(StatesTToW)
  {
  }

  lemma DistrictAndTerritoriesWellFormed()
    ensures WellFormed(DistrictAndTerritories)
  {
  }

  lemma ArmedForcesRegionsWellFormed()
    ensures WellFormed(ArmedForcesRegions)
  {
  }

  /** The table holds 58 entries, every abbreviation has two characters and no name holds a comma. */
  lemma TableShape()
    ensures |Entries| == 58
    ensures WellFormed(Entries)
  {
    StatesAToCWellFormed();
    StatesDToIWellFormed();
    StatesKToMWellFormed();
    StatesNWellFormed();
    StatesOToTWellFormed();
    StatesTToWWellFormed();
    DistrictAndTerritoriesWellFormed();
    ArmedForcesRegionsWellFormed();
    var acc := StatesAToC;
    WellFormedAppend(acc, StatesDToI);
    acc := acc + StatesDToI;
    WellFormedAppend(acc, StatesKToM);
    acc := acc + StatesKToM;
    WellFormedAppend(acc, StatesN);
    acc := acc + StatesN;
    WellFormedAppend(acc, StatesOToT);
    acc := acc + StatesOToT;
    WellFormedAppend(acc, StatesTToW);
    acc := acc + StatesTToW;
    WellFormedAppend(acc, DistrictAndTerritories);
    acc := acc + DistrictAndTerritories;
    WellFormedAppend(acc, ArmedForcesRegions);
    acc := acc + ArmedForcesRegions;
  }

  /** Every name a successful lookup returns is free of commas, and only two-character codes succeed. */
  lemma LookupCommaFree(code: string)
    ensures Lookup(code).Success? ==> ',' !in Lookup(code).value && |code| == 2
  {
    TableShape();
  }

  /** The last entry is found by name; a code of the wrong length is never found. */
  lemma LookupSamples()
    ensures Lookup("AP") == Success(ArmedForces + "Pacific")
    ensures Lookup("ZZZ") == Failure(UnknownAbbreviation("ZZZ"))
  {
    TableShape();
    assert Entries[57] == ArmedForcesRegions[2];
    assert FindLast(Entries, "AP") == Some(ArmedForces + "Pacific");
    LookupCommaFree("ZZZ");
  }
}

=== FILE: windows.dfy ===
/**
 * The reporting windows of the weekly comparisons. Dates are day numbers
 * (days since 1970-01-01); a window is an inclusive range of days.
 */
module Windows {

  /** Days between the latest model-creation date and the last day reported on. */
  const ReportLag: int := 2

  /** Days from the first to the last day of a week window (the week holds one more). */
  const WeekSpan: int := 6

  /** The shift from a week to the same week of the previous report: 7 days. */
  const WeekShift: int := 7

  /** The shift from this week to the comparison week of 2019: two 365-day years and a leap day. */
  const YearOverYearShift: int := 2 * 365 + 1

  /** An inclusive range of days. */
  datatype Window = Window(first: int, last: int)

  predicate Contains(w: Window, day: int) {
    w.first <= day <= w.last
  }

  /** The days of `w` in ascending order. */
  function DaysOf(w: Window): (days: seq<int>)
    ensures forall d :: d in days <==> Contains(w, d)
    ensures |days| == if w.last < w.first then 0 else w.last - w.first + 1
    ensures forall i | 0 <= i < |days| :: days[i] == w.first + i
    decreases w.last - w.first
  {
    if w.last < w.first then [] else [w.first] + DaysOf(Window(w.first + 1, w.last))
  }

  /** `w` moved `k` days into the past. */
  function Shift(w: Window, k: int): Window {
    Window(w.first - k, w.last - k)
  }

  /** The week reported on: it ends two days before the latest creation date and starts six days earlier. */
  function ThisWeek(latest: int): Window {
    var end := latest - ReportLag;
    Window(end - WeekSpan, end)
  }

  /** The week before `ThisWeek`. */
  function LastWeek(latest: int): Window {
    Shift(ThisWeek(latest), WeekShift)
  }

  /** The comparison week of 2019: `ThisWeek` moved back 731 days. */
  function Year2019Week(latest: int): Window {
    Shift(ThisWeek(latest), YearOverYearShift)
  }

  /** This week is the seven days from `latest - 8` to `latest - 2`, both included. */
  lemma ThisWeekShape(latest: int)
    ensures ThisWeek(latest) == Window(latest - 8, latest - 2)
    ensures DaysOf(ThisWeek(latest)) == [latest - 8, latest - 7, latest - 6, latest - 5, latest - 4, latest - 3, latest - 2]
    ensures forall d :: Contains(ThisWeek(latest), d) <==> latest - 8 <= d <= latest - 2
  {
  }

  /** A shifted window holds exactly the shifted days, and as many of them. */
  lemma ShiftContains(w: Window, k: int, day: int)
    ensures Contains(Shift(w, k), day) <==> Contains(w, day + k)
    ensures |DaysOf(Shift(w, k))| == |DaysOf(w)|
  {
  }

  /**
   * Last week ends the day before this week starts: the two are disjoint and
   * together cover the fourteen days from `latest - 15` to `latest - 2`.
   */
  lemma WeeksAdjacent(latest: int)
    ensures LastWeek(latest).last + 1 == ThisWeek(latest).first
    ensures |DaysOf(LastWeek(latest))| == 7
    ensures forall d :: !(Contains(LastWeek(latest), d) && Contains(ThisWeek(latest), d))
    ensures forall d :: latest - 15 <= d <= latest - 2 <==> Contains(LastWeek(latest), d) || Contains(ThisWeek(latest), d)
  {
  }

  /** The 2019 week is seven days, 731 days before this week's, and overlaps neither this week nor last week. */
  lemma Year2019WeekShape(latest: int)
    ensures Year2019Week(latest) == Window(latest - 739, latest - 733)
    ensures |DaysOf(Year2019Week(latest))| == 7
    ensures forall d :: Contains(Year2019Week(latest), d) <==> Contains(ThisWeek(latest), d + 731)
    ensures forall d :: Contains(Year2019Week(latest), d) ==> !Contains(ThisWeek(latest), d) && !Contains(LastWeek(latest), d)
  {
  }

  /*
   * The year-2019 comparison builds its window from a timestamp with
   * microsecond resolution, so the arithmetic is modelled in microseconds.
   */

  /** Microseconds in one day. */
  const MicrosPerDay: int := 86_400_000_000

  /** The timestamp, in microseconds, of the first instant of a day; daily rows carry these. */
  function Midnight(day: int): int {
    day * MicrosPerDay
  }

  /** An inclusive range of microsecond timestamps. */
  datatype Span = Span(start: int, end: int)

  /** True when a daily row dated `day` passes the filter `start <= Date <= end`. */
  predicate SpanHolds(s: Span, day: int) {
    s.start <= Midnight(day) <= s.end
  }

  /** A span moved back by `days` whole days. */
  function ShiftSpan(s: Span, days: int): Span {
    Span(s.start - days * MicrosPerDay, s.end - days * MicrosPerDay)
  }

  /** The week window of the previous-week comparison: both offsets are whole days. */
  function WeekSpanAsWritten(latest: int): Span {
    var end := Midnight(latest) - ReportLag * MicrosPerDay;
    Span(end - WeekSpan * MicrosPerDay, end)
  }

  /**
   * The week window of the 2019 comparison as written: the end is two days
   * before the latest date, but the start subtracts the bare integer 6 from a
   * microsecond timestamp, which moves it back six microseconds, not six days.
   */
  function Year2019SpanAsWritten(latest: int): Span {
    var end := Midnight(latest) - ReportLag * MicrosPerDay;
    Span(end - WeekSpan, end)
  }

  /** The previous-week comparison's timestamp filter keeps exactly the days of `ThisWeek`, and shifted by 7 days, of `LastWeek`. */
  lemma WeekSpanMatchesWindow(latest: int, day: int)
    ensures SpanHolds(WeekSpanAsWritten(latest), day) <==> Contains(ThisWeek(latest), day)
    ensures SpanHolds(ShiftSpan(WeekSpanAsWritten(latest), WeekShift), day) <==> Contains(LastWeek(latest), day)
  {
  }

  /**
   * The 2019 comparison as written keeps a single day in each of its windows:
   * `latest - 2` for this week and `latest - 733` for the 2019 baseline.
   */
  lemma Year2019SpanIsOneDay(latest: int, day: int)
    ensures SpanHolds(Year2019SpanAsWritten(latest), day) <==> day == latest - 2
    ensures SpanHolds(ShiftSpan(Year2019SpanAsWritten(latest), YearOverYearShift), day) <==> day == latest - 733
  {
  }

  /** A day of the intended week that the 2019 comparison as written leaves out. */
  lemma Year2019SpanMissesWeekStart(latest: int)
    ensures Contains(ThisWeek(latest), latest - 8)
    ensures !SpanHolds(Year2019SpanAsWritten(latest), latest - 8)
  {
  }
}

=== FILE: ytd.dfy ===
/**
 * The year-to-date section of the report: the average booking per state
 * since 2021-01-01 in the latest snapshot, sorted once in descending order,
 * its head and tail named in two sentences.
 */
module YearToDate {

  import opened Outcomes
  import opened Bookings
  import opened Percent
  import opened Ranking
  import opened Joining
  import opened Markup
  import opened Report

  /** The first day of the year-to-date section: 2021-01-01 as a day number. */
  const YtdStart: int := 18628

  /** The states of the year-to-date averages: exactly the names with rows in the year-to-date selection. */
  ghost predicate AverageKeys(rows: seq<BookingRecord>, latest: Option<int>, averages: map<string, Pct>) {
    forall name :: name in averages <==> StateHasYtdRows(rows, latest, name)
  }

  /** True when some year-to-date row of the snapshot `latest` has state name `name`. */
  predicate StateHasYtdRows(rows: seq<BookingRecord>, latest: Option<int>, name: string) {
    exists i | 0 <= i < |rows| :: YtdState(latest, name)(rows[i])
  }

  /** Each average is the sum of the bookings of that state's year-to-date rows divided by their (positive) number. */
  ghost predicate AverageValues(rows: seq<BookingRecord>, latest: Option<int>, averages: map<string, Pct>) {
    forall name | name in averages ::
      && Summarize(rows, YtdState(latest, name)).count > 0
      && averages[name] == Num(Summarize(rows, YtdState(latest, name)).sum as real /
                               Summarize(rows, YtdState(latest, name)).count as real)
  }

  /**
   * The average booking per state name over the year so far, in the latest
   * snapshot `latest`; an empty table has no snapshot and no averages.
   */
  method YtdAverages(rows: seq<BookingRecord>) returns (averages: map<string, Pct>, latest: Option<int>)
    ensures AverageValues(rows, latest, averages)
    ensures AverageKeys(rows, latest, averages)
    ensures latest.Some? <==> |rows| > 0
    ensures latest.Some? ==> IsLatest(rows, latest.value)
  {
    latest := LatestCreation(rows);
    var groups := YtdGroups(rows, latest);
    averages := map name | name in groups :: Num(groups[name].sum as real / groups[name].count as real);
  }

  /** The year-to-date rows of the snapshot `latest`, grouped by state name. */
  method YtdGroups(rows: seq<BookingRecord>, latest: Option<int>) returns (groups: map<string, Aggregate>)
    ensures forall name :: name in groups <==> StateHasYtdRows(rows, latest, name)
    ensures forall name | name in groups ::
              groups[name] == Summarize(rows, YtdState(latest, name)) && groups[name].count > 0
  {
    var selected := Where(rows, InYtd(latest));
    groups := GroupBy(selected, StateOf);
    forall name
      ensures name in groups <==> StateHasYtdRows(rows, latest, name)
      ensures name in groups ==> groups[name] == Summarize(rows, YtdState(latest, name))
    {
      GroupOfSelection(rows, InYtd(latest), StateOf, name, YtdState(latest, name));
    }
  }

  /** The condition "the row is in the latest snapshot and dated 2021-01-01 or later"; nothing passes without a snapshot. */
  function InYtd(latest: Option<int>): BookingRecord -> bool {
    (r: BookingRecord) => latest.Some? && r.modelCreationDate == latest.value && r.date >= YtdStart
  }

  /** The condition "... and belongs to the state named `name`". */
  function YtdState(latest: Option<int>, name: string): BookingRecord -> bool {
    (r: BookingRecord) => latest.Some? && r.modelCreationDate == latest.value && r.date >= YtdStart && r.state == name
  }

  /**
   * `high` is the head of the descending sort of the averages: the (at most
   * five) largest, from the highest down, each at least every state left out.
   */
  ghost predicate TopList(averages: map<string, Pct>, high: seq<string>) {
    && |high| == Min(ListSize, |averages|)
    && (forall i | 0 <= i < |high| :: high[i] in averages)
    && (forall i, j | 0 <= i < j < |high| :: high[i] != high[j] && AtMost(averages[high[j]], averages[high[i]]))
    && (forall i, name | 0 <= i < |high| && name in averages && name !in high ::
          AtMost(averages[name], averages[high[i]]))
  }

  /**
   * `low` is the tail of the descending sort of the averages: the (at most
   * five) smallest, listed from the higher down, each at most every state left out.
   */
  ghost predicate BottomList(averages: map<string, Pct>, low: seq<string>) {
    && |low| == Min(ListSize, |averages|)
    && (forall i | 0 <= i < |low| :: low[i] in averages)
    && (forall i, j | 0 <= i < j < |low| :: low[i] != low[j] && AtMost(averages[low[j]], averages[low[i]]))
    && (forall i, name | 0 <= i < |low| && name in averages && name !in low ::
          AtMost(averages[low[i]], averages[name]))
  }

  /**
   * `ranked` is the descending sort of the averages: every state exactly
   * once, from the highest average down.
   */
  ghost predicate DescendingRanking(averages: map<string, Pct>, ranked: seq<string>) {
    && |ranked| == |averages|
    && (forall i | 0 <= i < |ranked| :: ranked[i] in averages)
    && (forall name | name in averages :: name in ranked)
    && (forall i, j | 0 <= i < j < |ranked| :: ranked[i] != ranked[j] && AtMost(averages[ranked[j]], averages[ranked[i]]))
  }

  /** `sort_values(by='ActualBooking', ascending=False)` over all the states. */
  method RankAverages(averages: map<string, Pct>) returns (ranked: seq<string>)
    ensures DescendingRanking(averages, ranked)
  {
    assert Eligible(averages, AnySign) == averages.Keys;
    ranked := SelectTop(averages, AnySign, Descending, |averages|);
  }

  /** `State[:5]`: the head of the ranking. */
  function TopStates(ranked: seq<string>): seq<string> {
    ranked[..Min(ListSize, |ranked|)]
  }

  /** `State[-5:]`: the tail of the ranking, in ranking order. */
  function BottomStates(ranked: seq<string>): seq<string> {
    ranked[|ranked| - Min(ListSize, |ranked|)..]
  }

  /** The head of the descending sort is the list of the (at most five) highest averages. */
  lemma TopStatesTopList(averages: map<string, Pct>, ranked: seq<string>)
    requires DescendingRanking(averages, ranked)
    ensures TopList(averages, TopStates(ranked))
  {
    var high := TopStates(ranked);
    forall i, name | 0 <= i < |high| && name in averages && name !in high
      ensures AtMost(averages[name], averages[high[i]])
    {
      var k :| 0 <= k < |ranked| && ranked[k] == name;
    }
  }

  /** The tail of the descending sort is the list of the (at most five) lowest averages. */
  lemma BottomStatesBottomList(averages: map<string, Pct>, ranked: seq<string>)
    requires DescendingRanking(averages, ranked)
    ensures BottomList(averages, BottomStates(ranked))
  {
    var low := BottomStates(ranked);
    var start := |ranked| - |low|;
    assert forall i | 0 <= i < |low| :: low[i] == ranked[start + i];
    forall i, name | 0 <= i < |low| && name in averages && name !in low
      ensures AtMost(averages[low[i]], averages[name])
    {
      var k :| 0 <= k < |ranked| && ranked[k] == name;
    }
  }

  /** With ten or more states the head and the tail of one ranking share no state. */
  lemma TopBottomDisjoint(averages: map<string, Pct>, ranked: seq<string>)
    requires DescendingRanking(averages, ranked)
    ensures |averages| >= 2 * ListSize ==>
              forall i, j | 0 <= i < |TopStates(ranked)| && 0 <= j < |BottomStates(ranked)| ::
                TopStates(ranked)[i] != BottomStates(ranked)[j]
  {
    if |averages| >= 2 * ListSize {
      var start := |ranked| - ListSize;
      assert forall j | 0 <= j < |BottomStates(ranked)| :: BottomStates(ranked)[j] == ranked[start + j];
    }
  }

  /** The frames of the two year-to-date sentences, up to the list of names. */
  const YtdHighFrame: string := "The top 5 states with highest booking YTD are "
  const YtdLowFrame: string := "The top 5 states with lowest booking YTD are "

  /** The two sentences of the year-to-date section. */
  function YtdSentences(high: seq<string>, low: seq<string>, asWritten: bool): seq<string> {
    [YtdHighFrame + NameList(high, asWritten) + ".", YtdLowFrame + NameList(low, asWritten) + "."]
  }

  /** With no state to name the script still prints its " and", as in "... YTD are  and."; the intended list prints nothing. */
  lemma YtdSentencesEmpty()
    ensures YtdSentences([], [], true) == [YtdHighFrame + " and" + ".", YtdLowFrame + " and" + "."]
    ensures YtdSentences([], [], false) == [YtdHighFrame + ".", YtdLowFrame + "."]
  {
    EmptyListSentence(YtdHighFrame, ".");
    EmptyListSentence(YtdLowFrame, ".");
  }

  /** An empty list inside a frame: the splice leaves " and" between the two halves, the intended list nothing. */
  lemma EmptyListSentence(before: string, after: string)
    ensures before + NameList([], true) + after == before + " and" + after
    ensures before + NameList([], false) + after == before + after
  {
    assert NameList([], true) == " and" by {
      ScriptJoinEmpty();
    }
    assert NameList([], false) == "";
    assert before + "" == before;
  }

  /** The year-to-date section: the head and the tail of one ranking as sentences, each one list item of the markup. */
  method YtdSection(averages: map<string, Pct>, asWritten: bool) returns (s: Section, ranked: seq<string>)
    ensures s.sentences == YtdSentences(s.highStates, s.lowStates, asWritten)
    ensures s.markup == PTagWrap(s.sentences)
    ensures DescendingRanking(averages, ranked)
    ensures s.highStates == TopStates(ranked) && s.lowStates == BottomStates(ranked)
    ensures TopList(averages, s.highStates)
    ensures BottomList(averages, s.lowStates)
    ensures |averages| >= 2 * ListSize ==>
              forall i, j | 0 <= i < |s.highStates| && 0 <= j < |s.lowStates| :: s.highStates[i] != s.lowStates[j]
  {
    ranked := RankAverages(averages);
    var high := TopStates(ranked);
    var low := BottomStates(ranked);
    TopStatesTopList(averages, ranked);
    BottomStatesBottomList(averages, ranked);
    TopBottomDisjoint(averages, ranked);
    var sentences := YtdSentences(high, low, asWritten);
    s := Section(low, high, sentences, PTagWrap(sentences));
  }

  /** The year-to-date section of the report, with the averages it ranks and their ranking. */
  method YtdReport(rows: seq<BookingRecord>, asWritten: bool)
    returns (s: Section, averages: map<string, Pct>, latest: Option<int>, ranked: seq<string>)
    ensures |rows| == 0 ==> s.highStates == [] && s.lowStates == [] && s.sentences == YtdSentences([], [], asWritten)
    ensures s.sentences == YtdSentences(s.highStates, s.lowStates, asWritten)
    ensures s.markup == PTagWrap(s.sentences)
    ensures latest.Some? <==> |rows| > 0
    ensures latest.Some? ==> IsLatest(rows, latest.value)
    ensures AverageValues(rows, latest, averages)
    ensures AverageKeys(rows, latest, averages)
    ensures DescendingRanking(averages, ranked)
    ensures s.highStates == TopStates(ranked) && s.lowStates == BottomStates(ranked)
    ensures TopList(averages, s.highStates)
    ensures BottomList(averages, s.lowStates)
    ensures |averages| >= 2 * ListSize ==>
              forall i, j | 0 <= i < |s.highStates| && 0 <= j < |s.lowStates| :: s.highStates[i] != s.lowStates[j]
  {
    averages, latest := YtdAverages(rows);
    if |rows| == 0 {
      assert averages.Keys == {};
    }
    s, ranked := YtdSection(averages, asWritten);
  }
}
